=== FILE: README.md ===
# Barbalace-TP1 game logic in Dafny

A model of the gameplay core of the Barbalace-TP1 Unity game, with proofs about it. The model covers:

- the enemy soldier's state machine (latest revision, `SoldierEnemyAI`) and its older revision (`EnemyAI`);
- the global alert bus that all soldiers share (`AlertManager`);
- the enemy weapon's cooldown gate (`EnemyWeapon`);
- the chase step both enemy revisions share: drain, then at most one attack (`Pursuit`). The older revision's copy of this code (Barbalace-TP1/Assets/Scripts/Enemy/EnemyAI.cs lines 156-199) is the same as the latest one's, apart from where the attack values are read;
- the player's pistol: magazine, fire-rate gate and two-phase reload (`Pistol`);
- the player's health, stamina, sprint, crouch, death and respawn (`PlayerStats`);
- the scene that ties them together (`Level`): a raised alert reaches every soldier, and a pistol hit reaches the soldier it struck.

Engine work is reduced to the values the logic reads from it:

- movement, rotation, ray casts and navigation;
- the enemy's view of the player, which becomes a `Vision.Percept` (distance, angle, nearest ray hit), taken before the enemy moves;
- the enemy's distance to the player after this frame's chase movement (`reach`), which the attack range checks read (Barbalace-TP1/Assets/Scripts/Enemy/Soldier/EnemyAI.cs:311);
- the flat distance to the current patrol point, which is a parameter.

Time is in integer milliseconds. Stamina is in thousandths of a point, so "more than one point" is `1000`. Coroutines become `Countdown` fields (`Stopped` or `Running(deadline)`) that a separate operation runs when due. Events that components raise (`OnEnemyDied`, `OnGlobalAlertTriggered`, ...) are appended to a notice log.

Consequences of the code as written that the model keeps, each proved as a lemma:

- `Start` puts a soldier with patrol points into Patrol (Barbalace-TP1/Assets/Scripts/Enemy/Soldier/EnemyAI.cs:103-106), but `ResetEnemy` sets Normal (Barbalace-TP1/Assets/Scripts/Enemy/Soldier/EnemyAI.cs:426), and the Normal case of a frame does nothing (Barbalace-TP1/Assets/Scripts/Enemy/Soldier/EnemyAI.cs:133-135). A respawned soldier with no shot memory therefore stays in Normal instead of patrolling, as long as it does not see the player and no new alert is raised (`SoldierEnemyAI.ResetEnemy`, `SoldierEnemyAI.UnprovokedNormalIsIdle`). A new alert does reach it through `ForceAlert` (Barbalace-TP1/Assets/Scripts/Enemy/Soldier/EnemyAI.cs:97-100, :275-285). The shot memory is not cleared by death or respawn (Barbalace-TP1/Assets/Scripts/Enemy/Soldier/EnemyAI.cs:392-431), so a soldier that was provoked before dying chases again on its first frame after respawning (`SoldierEnemyAI.RespawnedChaserResumes`).
- `damageStateDuration` is declared (Barbalace-TP1/Assets/Scripts/Enemy/Soldier/EnemyAI.cs:63) but never assigned to `damageStateTimer`: the timer is only decremented (Barbalace-TP1/Assets/Scripts/Enemy/Soldier/EnemyAI.cs:175) or zeroed (Barbalace-TP1/Assets/Scripts/Enemy/Soldier/EnemyAI.cs:415), and a survived hit sets Damage without arming it (Barbalace-TP1/Assets/Scripts/Enemy/Soldier/EnemyAI.cs:383). Damage therefore lasts exactly one frame (`SoldierEnemyAI.DamageLastsOneFrame`).
- `wasShotByPlayer` is only ever set to true (Barbalace-TP1/Assets/Scripts/Enemy/Soldier/EnemyAI.cs:55, :447; Barbalace-TP1/Assets/Scripts/Enemy/EnemyAI.cs:43, :214, :278). A chasing soldier therefore keeps chasing and re-raises the alert whenever it is down (`SoldierEnemyAI.ChaseIsSticky`). The older revision chases on every live frame once shot (`EnemyAI.ShotIsNeverForgotten`).
- The older revision's `TakeDamage` sets Chase on a survived hit (Barbalace-TP1/Assets/Scripts/Enemy/EnemyAI.cs:209-211); nothing else sets Damage, so that state is never entered (`EnemyAI.RunPreservesValid`).
- `ForceAlert` sets Alert and then calls `ForceChase` in the same call (Barbalace-TP1/Assets/Scripts/Enemy/Soldier/EnemyAI.cs:276-284), so Alert is never observable between operations (`SoldierEnemyAI.Valid`, kept by `SoldierEnemyAI.RunPreservesValid`).
- The player's frame returns before reading the respawn key when health is gone or the controller is disabled (Barbalace-TP1/Assets/Scripts/Player/PlayerStats.cs:103-104, 116-120), and death disables the controller (Barbalace-TP1/Assets/Scripts/Player/PlayerStats.cs:277). The F1 respawn therefore never revives a dead player (`PlayerStats.DeadStaysDead`, `PlayerStats.DiesAtMostOnce`).

## Model

| member | source | states |
|---|---|---|
| Vision.InConeOfVision | Barbalace-TP1/Assets/Scripts/Enemy/Soldier/EnemyAI.cs:182-201 | the player is seen iff within view distance, within view angle, and the ray's nearest hit is the player; a ray that hits nothing never sees |
| AlertManager.Init | Barbalace-TP1/Assets/Scripts/GameManager/alertManager.cs:12-13 | the bus starts down, with no expiry pending and no notices |
| AlertManager.Trigger | Barbalace-TP1/Assets/Scripts/GameManager/alertManager.cs:32-42 | raising an active alert changes nothing; raising a quiet one brings it up with an expiry due 30 s later and exactly one trigger notice; the alert is always up afterwards |
| AlertManager.Expire | Barbalace-TP1/Assets/Scripts/GameManager/alertManager.cs:46-53 | a due expiry brings the alert down and raises one disabled notice; before it is due nothing changes; one expiry pending iff the alert is up is preserved |
| AlertManager.TriggersWhileActiveAreIgnored | Barbalace-TP1/Assets/Scripts/GameManager/alertManager.cs:34 | any number of raises while the alert is up leave the bus exactly as it was |
| AlertManager.FirstRaiseFixesTheWindow | Barbalace-TP1/Assets/Scripts/GameManager/alertManager.cs:32-42 | a burst of raises on a quiet bus opens one window ending 30 s after the first raise and adds exactly one trigger notice |
| AlertManager.WindowCloses | Barbalace-TP1/Assets/Scripts/GameManager/alertManager.cs:46-53 | once 30 s have passed since the first raise, the next expiry check brings the alert down, whatever raises came in between |
| AlertManager.StaysUpUntilDeadline | Barbalace-TP1/Assets/Scripts/GameManager/alertManager.cs:46-50 | the alert does not go down before its deadline |
| AlertManager.RunPreservesValid | Barbalace-TP1/Assets/Scripts/GameManager/alertManager.cs:32-53 | along any sequence of raises and expiries, the alert is up iff one expiry is pending |
| EnemyWeapon.Init | Barbalace-TP1/Assets/Scripts/Enemy/EnemyWeapon.cs:6-10 | a new weapon keeps its damage, range and cooldown and is ready from time 0 |
| EnemyWeapon.TryAttack | Barbalace-TP1/Assets/Scripts/Enemy/EnemyWeapon.cs:12-20 | the weapon strikes iff the cooldown has elapsed; a strike damages the player once and moves the next allowed time a cooldown past now; an early attempt changes nothing |
| EnemyWeapon.FirstAttackStrikes | Barbalace-TP1/Assets/Scripts/Enemy/EnemyWeapon.cs:10-16 | a fresh weapon strikes at any non-negative time |
| EnemyWeapon.Strikes | Barbalace-TP1/Assets/Scripts/Enemy/EnemyWeapon.cs:12-20 | the strike times are a subset of the attempt times, no more numerous, and the first is not before the weapon was ready |
| EnemyWeapon.StrikesAreSpaced | Barbalace-TP1/Assets/Scripts/Enemy/EnemyWeapon.cs:14-16 | over any sequence of attempts, consecutive strikes are at least one cooldown apart |
| Pistol.Awake | Barbalace-TP1/Assets/Scripts/Player/Pistol.cs:44 | the pistol starts with a full magazine, no reload running and ready to fire |
| Pistol.TryRecharge | Barbalace-TP1/Assets/Scripts/Player/Pistol.cs:98-121 | a reload starts, due 1.5 s later, only when none is running and the magazine is not full; the ammo count is untouched |
| Pistol.FinishRecharge | Barbalace-TP1/Assets/Scripts/Player/Pistol.cs:115-126 | a due reload fills the magazine and allows firing again; otherwise nothing changes; the magazine bounds are kept |
| Pistol.Update | Barbalace-TP1/Assets/Scripts/Player/Pistol.cs:47-68 | a shot leaves iff no reload runs, the trigger was pulled, the fire-rate gate is open and a round is left; a shot spends exactly one round and closes the gate for one interval; the reload key then starts a reload due 1.5 s later iff none is running and the magazine, after this frame's shot, is not full, and otherwise the reload state is untouched; the magazine bounds are kept |
| Pistol.Shoot | Barbalace-TP1/Assets/Scripts/Player/Pistol.cs:70-73 | a shot spends one round and nothing else |
| Pistol.ShotsComeFromTheMagazine | Barbalace-TP1/Assets/Scripts/Player/Pistol.cs:47-73 | over any sequence of frames without a completed reload, shots fired equal rounds spent, never exceed the rounds held, and the magazine bounds hold |
| Pursuit.TryAttackPlayer | Barbalace-TP1/Assets/Scripts/Enemy/Soldier/EnemyAI.cs:322-329 | the fallback attack does nothing before one cooldown since the last attack; after it the player takes the attack damage once and the attack time is recorded |
| Pursuit.FirstFallbackWaitsACooldown | Barbalace-TP1/Assets/Scripts/Enemy/Soldier/EnemyAI.cs:43 | an enemy that has never attacked cannot use its fallback attack before one cooldown has passed since time 0 |
| Pursuit.FallbackStrikes | Barbalace-TP1/Assets/Scripts/Enemy/Soldier/EnemyAI.cs:322-329 | the fallback strike times are a subset of the attempt times, no more numerous, and the first is at least one cooldown after the last recorded attack |
| Pursuit.FallbackStrikesAreSpaced | Barbalace-TP1/Assets/Scripts/Enemy/Soldier/EnemyAI.cs:322-327 | over any sequence of attempts, consecutive fallback strikes are at least one cooldown apart |
| Pursuit.Drain | Barbalace-TP1/Assets/Scripts/Enemy/Soldier/EnemyAI.cs:306-308 | the chase drains stamina at the drain rate for the frame time, clamped at 0, re-enables sprint once stamina ends above one point, pauses recovery, and changes no other field of the player |
| Pursuit.Strike | Barbalace-TP1/Assets/Scripts/Enemy/Soldier/EnemyAI.cs:310-319 | at most one attack per frame: the weapon's when it reaches, gated by its own cooldown; else the fallback's within its range, gated by the fallback cooldown; else none; stamina and pause are untouched |
| Pursuit.LethalWeaponStrikeKills | Barbalace-TP1/Assets/Scripts/Enemy/Soldier/EnemyAI.cs:310-316 | a ready weapon strike that leaves a live, active player no health kills it and disables its movement |
| Pursuit.LethalFallbackStrikeKills | Barbalace-TP1/Assets/Scripts/Enemy/Soldier/EnemyAI.cs:322-329 | a fallback strike that leaves a live, active player no health kills it and disables its movement |
| Pursuit.ChasePlayer | Barbalace-TP1/Assets/Scripts/Enemy/Soldier/EnemyAI.cs:286-320 | against a dead player nothing happens; otherwise the player ends exactly as the drain leaves it, then hit by at most one attack through the player's own damage call (so a lethal hit kills): the weapon's when it reaches, gated by its own cooldown, else the fallback's within its range, gated by the fallback cooldown |
| PlayerStats.Awake | Barbalace-TP1/Assets/Scripts/Player/PlayerStats.cs:53-98 | the player starts alive, able to move and sprint, at the spawn pose with full health and stamina |
| PlayerStats.ModifyStamina | Barbalace-TP1/Assets/Scripts/Player/PlayerStats.cs:197-201 | stamina changes by the amount, clamped to [0, max]; sprint is allowed afterwards iff it was allowed before or stamina ends above one point |
| PlayerStats.PauseRecovery | Barbalace-TP1/Assets/Scripts/Player/PlayerStats.cs:203-206 | sets the recovery pause and nothing else |
| PlayerStats.HandleStamina | Barbalace-TP1/Assets/Scripts/Player/PlayerStats.cs:144-185 | stamina drains iff a sprint is requested and allowed, to exactly the old value less the drain rate times the frame time, clamped at 0, and exhaustion locks sprinting out; it recovers iff not paused, not sprinting and below the maximum, to exactly the old value plus the recovery rate times the frame time, capped at the maximum; otherwise nothing changes; stamina stays in [0, max] |
| PlayerStats.HandleCrouchInput | Barbalace-TP1/Assets/Scripts/Player/PlayerStats.cs:131-141 | a press toggles crouching; no press changes nothing |
| PlayerStats.CrouchToggleIsInvolution | Barbalace-TP1/Assets/Scripts/Player/PlayerStats.cs:136-140 | two crouch presses cancel out |
| PlayerStats.MovementSpeed | Barbalace-TP1/Assets/Scripts/Player/PlayerStats.cs:223-228 | crouching wins over sprinting, which wins over walking; the speed is always one of the three configured speeds |
| PlayerStats.SprintSpeedNeedsSprintAllowed | Barbalace-TP1/Assets/Scripts/Player/PlayerStats.cs:151-228 | sprint speed is chosen only when sprint is held, the player is not crouching, and the same frame's stamina logic left sprinting allowed with stamina remaining |
| PlayerStats.Die | Barbalace-TP1/Assets/Scripts/Player/PlayerStats.cs:268-282 | death marks the player dead and disables movement once; a dead player is left as is |
| PlayerStats.DieIsIdempotent | Barbalace-TP1/Assets/Scripts/Player/PlayerStats.cs:270-271 | dying twice is dying once |
| PlayerStats.TakeDamage | Barbalace-TP1/Assets/Scripts/Player/PlayerStats.cs:254-266 | health drops by the amount; reaching zero on an active player pins health at 0 and kills it; stamina and pose are untouched |
| PlayerStats.Respawn | Barbalace-TP1/Assets/Scripts/Player/PlayerStats.cs:284-306 | the player is alive and able to move again at the spawn pose with spawn health and full stamina; crouch, sprint lock and recovery pause carry over |
| PlayerStats.RespawnRestoresAwake | Barbalace-TP1/Assets/Scripts/Player/PlayerStats.cs:284-306 | a respawn restores the health, stamina, pose, liveness and movement the scene gave at load time; crouch, sprint lock-out and recovery pause carry over |
| PlayerStats.Update | Barbalace-TP1/Assets/Scripts/Player/PlayerStats.cs:100-127 | a frame with no health or movement disabled does nothing; otherwise crouch, stamina and speed are applied in order and the respawn key respawns; a living player never dies in its own frame |
| PlayerStats.DeadFrameIsSkipped | Barbalace-TP1/Assets/Scripts/Player/PlayerStats.cs:100-104 | a dead player's frame does nothing, whatever its input, respawn key included |
| PlayerStats.DeadStaysDead | Barbalace-TP1/Assets/Scripts/Player/PlayerStats.cs:100-120 | along any sequence of hits and frames, respawn key presses included, a dead player stays dead and unable to move |
| PlayerStats.NoDeathsOnceDead | Barbalace-TP1/Assets/Scripts/Player/PlayerStats.cs:254-282 | along any sequence of hits and frames, a dead player goes through no further death |
| PlayerStats.DiesAtMostOnce | Barbalace-TP1/Assets/Scripts/Player/PlayerStats.cs:100-120 | along any sequence of hits and frames, respawn key presses included, the player dies at most once, and not at all if already dead |
| SoldierEnemyAI.Awake | Barbalace-TP1/Assets/Scripts/Enemy/Soldier/EnemyAI.cs:69-86 | a soldier starts valid, in Normal, at full health, not shot, with no alert countdown |
| SoldierEnemyAI.Start | Barbalace-TP1/Assets/Scripts/Enemy/Soldier/EnemyAI.cs:103-107 | a soldier with a route starts patrolling at its first point; one without stays as it is |
| SoldierEnemyAI.SetState | Barbalace-TP1/Assets/Scripts/Enemy/Soldier/EnemyAI.cs:433-440 | the state becomes the one asked for and nothing else changes |
| SoldierEnemyAI.ForceChase | Barbalace-TP1/Assets/Scripts/Enemy/Soldier/EnemyAI.cs:442-450 | a live soldier starts chasing and remembers the player as hostile; a dead one is untouched |
| SoldierEnemyAI.ForceAlert | Barbalace-TP1/Assets/Scripts/Enemy/Soldier/EnemyAI.cs:275-285 | the alert reaction ends exactly where a forced chase ends; a dead soldier is untouched |
| SoldierEnemyAI.Die | Barbalace-TP1/Assets/Scripts/Enemy/Soldier/EnemyAI.cs:392-408 | the soldier is dead and switched off, the player's recovery resumes, and the died notices are raised once; nothing else about the soldier changes (shot memory, cursor, arms, pose, timers) |
| SoldierEnemyAI.TakeDamage | Barbalace-TP1/Assets/Scripts/Enemy/Soldier/EnemyAI.cs:362-390 | dead soldiers ignore hits; health drops to max(0, health - amount); a lethal hit is exactly a death at zero health with the countdown cancelled; a survived hit enters Damage and restarts the alert countdown and changes nothing else (cursor, pose, arms, movement, shot memory, stagger timer); validity is preserved |
| SoldierEnemyAI.HandleDamageState | Barbalace-TP1/Assets/Scripts/Enemy/Soldier/EnemyAI.cs:171-180 | in Damage the stagger timer runs down; when spent the soldier chases if it sees the player and goes Normal otherwise; outside Damage nothing changes |
| SoldierEnemyAI.DoPatrol | Barbalace-TP1/Assets/Scripts/Enemy/Soldier/EnemyAI.cs:203-267 | without a route or movement the soldier falls back to Normal; on arrival strictly within tolerance the cursor moves to the next point cyclically; otherwise nothing changes |
| SoldierEnemyAI.GoToNextPatrolPoint | Barbalace-TP1/Assets/Scripts/Enemy/Soldier/EnemyAI.cs:268-273 | the cursor advances by one, wrapping from the last point to the first, and always indexes the route |
| SoldierEnemyAI.Update | Barbalace-TP1/Assets/Scripts/Enemy/Soldier/EnemyAI.cs:110-169 | a dead soldier does nothing, and so does an unprovoked Normal one, alert or not; sight or a remembered shot always ends the frame chasing with the alert raised as a raise at this time would, and runs the chase step on the player with the soldier's arms at the post-move distance; so does a chase under an active alert; in every other frame the player and the arms are untouched and, without provocation, the bus too; an active alert interrupts a patrol; an unprovoked chase with no alert falls back to the route or to Normal; the shot memory is set only by a provocation or a forced chase, the cursor moves only on a patrol, and health, pose, countdown and notices never change |
| SoldierEnemyAI.AlertCountdown | Barbalace-TP1/Assets/Scripts/Enemy/Soldier/EnemyAI.cs:343-361 | before it is due nothing happens; when due it is cleared; a live soldier under a quiet bus raises the alert and ends chasing with the shot memory set, nothing else about it changing; a dead soldier or an active alert only clears the countdown |
| SoldierEnemyAI.ResetEnemy | Barbalace-TP1/Assets/Scripts/Enemy/Soldier/EnemyAI.cs:410-431 | the soldier is switched on at the given pose and health, in Normal, with the stagger cleared and one respawn notice; shot memory, countdown, cursor and cooldown carry over |
| SoldierEnemyAI.ForceAlertPreservesValid | Barbalace-TP1/Assets/Scripts/Enemy/Soldier/EnemyAI.cs:275-285 | the alert reaction keeps a soldier valid and a live one ends chasing |
| SoldierEnemyAI.ResetEnemyPreservesValid | Barbalace-TP1/Assets/Scripts/Enemy/Soldier/EnemyAI.cs:410-431 | a respawn with non-negative health keeps a soldier valid |
| SoldierEnemyAI.AlertCountdownPreservesValid | Barbalace-TP1/Assets/Scripts/Enemy/Soldier/EnemyAI.cs:343-361 | running the alert countdown keeps a soldier valid |
| SoldierEnemyAI.UpdatePreservesValid | Barbalace-TP1/Assets/Scripts/Enemy/Soldier/EnemyAI.cs:110-169 | every frame keeps a soldier valid, so the patrol cursor always indexes the route |
| SoldierEnemyAI.DamageLastsOneFrame | Barbalace-TP1/Assets/Scripts/Enemy/Soldier/EnemyAI.cs:171-180 | a valid soldier in Damage always leaves it on its next frame, whatever the stagger duration |
| SoldierEnemyAI.ChaseIsSticky | Barbalace-TP1/Assets/Scripts/Enemy/Soldier/EnemyAI.cs:119-167 | a valid chasing soldier is still chasing after its next frame, with the alert up |
| SoldierEnemyAI.PatrolAdvancesOnArrival | Barbalace-TP1/Assets/Scripts/Enemy/Soldier/EnemyAI.cs:137-145 | an unprovoked patroller with no alert keeps patrolling and advances its cursor exactly when it has arrived |
| SoldierEnemyAI.DeadIsAbsorbing | Barbalace-TP1/Assets/Scripts/Enemy/Soldier/EnemyAI.cs:110-112 | without a respawn, nothing that happens to a dead soldier changes it, the bus or the player |
| SoldierEnemyAI.UnprovokedNormalIsIdle | Barbalace-TP1/Assets/Scripts/Enemy/Soldier/EnemyAI.cs:133-135 | a Normal soldier that has not been shot stays exactly as it is, with bus and player, over any run of frames in which it does not see the player |
| SoldierEnemyAI.SightedPlayerCanBeKilled | Barbalace-TP1/Assets/Scripts/Enemy/Soldier/EnemyAI.cs:119-127 | a soldier that sees the player, within reach of its ready weapon, kills a player whose health does not exceed the weapon's damage |
| SoldierEnemyAI.RespawnedChaserResumes | Barbalace-TP1/Assets/Scripts/Enemy/Soldier/EnemyAI.cs:392-431 | a provoked soldier that is killed and respawned chases again on its first frame, with the alert up, because the shot memory is carried through |
| SoldierEnemyAI.RespawnLeavesDead | Barbalace-TP1/Assets/Scripts/Enemy/Soldier/EnemyAI.cs:410-431 | a respawn takes a dead soldier to a valid Normal state |
| SoldierEnemyAI.RunPreservesValid | Barbalace-TP1/Assets/Scripts/Enemy/Soldier/EnemyAI.cs:110-431 | along any sequence of frames, hits, alert reactions, countdowns and respawns, the soldier, the bus and the player stay valid |
| EnemyAI.Awake | Barbalace-TP1/Assets/Scripts/Enemy/EnemyAI.cs:58-78 | an enemy starts valid, in Normal, at full health, not shot |
| EnemyAI.SetState | Barbalace-TP1/Assets/Scripts/Enemy/EnemyAI.cs:264-271 | the state becomes the one asked for and nothing else changes |
| EnemyAI.ForceChase | Barbalace-TP1/Assets/Scripts/Enemy/EnemyAI.cs:273-281 | a live enemy starts chasing, remembers the shot and rearms the chase timer; a dead one is untouched |
| EnemyAI.Die | Barbalace-TP1/Assets/Scripts/Enemy/EnemyAI.cs:223-239 | the enemy is dead and switched off, the player's recovery resumes, and the died notices are raised once; nothing else about the enemy changes |
| EnemyAI.TakeDamage | Barbalace-TP1/Assets/Scripts/Enemy/EnemyAI.cs:201-221 | dead enemies ignore hits; health drops to max(0, health - amount); a survivor goes straight to Chase with the stagger and chase timers armed and the shot remembered, and nothing else changes; a lethal hit is exactly a death at zero health; validity is preserved |
| EnemyAI.HandleDamageState | Barbalace-TP1/Assets/Scripts/Enemy/EnemyAI.cs:119-128 | in Damage the stagger timer runs down and, when spent, leads to Chase on sight and Normal otherwise; outside Damage nothing changes |
| EnemyAI.Update | Barbalace-TP1/Assets/Scripts/Enemy/EnemyAI.cs:90-117 | a dead enemy does nothing; sight or a remembered shot ends the frame chasing with the chase timer rearmed; every live frame that ends chasing runs the chase step on the player with the enemy's arms at the post-move distance, and every other frame leaves the player and the arms untouched; an unprovoked Normal enemy changes nothing; only state, shot memory, timers and arms can change, the stagger timer only in Damage; validity is preserved |
| EnemyAI.ResetEnemy | Barbalace-TP1/Assets/Scripts/Enemy/EnemyAI.cs:241-262 | the enemy is switched on at the given pose and health, in Normal, with the stagger cleared and one respawn notice; shot memory, chase timer and attack cooldowns carry over, and nothing else changes |
| EnemyAI.RunPreservesValid | Barbalace-TP1/Assets/Scripts/Enemy/EnemyAI.cs:201-221 | along any sequence of frames, hits, chases and respawns, the enemy and player stay valid and the enemy is never in Damage |
| EnemyAI.DeadIsAbsorbing | Barbalace-TP1/Assets/Scripts/Enemy/EnemyAI.cs:90-92 | without a respawn nothing changes a dead enemy or the player |
| EnemyAI.ShotIsNeverForgotten | Barbalace-TP1/Assets/Scripts/Enemy/EnemyAI.cs:98-102 | once shot, an enemy remembers it along every run, through death and respawn |
| Level.NotifyAlert | Barbalace-TP1/Assets/Scripts/GameManager/alertManager.cs:39-41 | every soldier except the raiser gets the alert reaction: each live one ends chasing, each dead one is untouched, and the raiser is left to its own operation |
| Level.NotifyAlertPreservesValid | Barbalace-TP1/Assets/Scripts/Enemy/Soldier/EnemyAI.cs:97-100 | delivering the alert keeps every soldier valid |
| Level.SoldierFrame | Barbalace-TP1/Assets/Scripts/Enemy/Soldier/EnemyAI.cs:119-127 | a soldier's frame updates that soldier, the bus and the player; if it raised the alert, every other soldier gets the notification in the same frame; otherwise the others are untouched; pistol and configurations are untouched |
| Level.SightAlertsTheSquad | Barbalace-TP1/Assets/Scripts/Enemy/Soldier/EnemyAI.cs:119-127 | when a live soldier sees the player or remembers a shot under a quiet bus, the alert comes up and every live soldier ends the frame chasing |
| Level.SoldierFramePreservesValid | Barbalace-TP1/Assets/Scripts/Enemy/Soldier/EnemyAI.cs:110-169 | a soldier's frame keeps the whole scene valid |
| Level.SoldierCountdown | Barbalace-TP1/Assets/Scripts/Enemy/Soldier/EnemyAI.cs:343-361 | a soldier's due countdown updates that soldier and the bus; if it raised the alert, every other soldier gets the notification; otherwise the others are untouched; player, pistol and configurations are untouched |
| Level.CountdownAlertsTheSquad | Barbalace-TP1/Assets/Scripts/Enemy/Soldier/EnemyAI.cs:349-356 | a live soldier's due countdown under a quiet bus raises the alert and leaves every live soldier chasing |
| Level.SoldierCountdownPreservesValid | Barbalace-TP1/Assets/Scripts/Enemy/Soldier/EnemyAI.cs:349-356 | a soldier's countdown, including the broadcast it may cause, keeps the scene valid |
| Level.AlertExpiry | Barbalace-TP1/Assets/Scripts/GameManager/alertManager.cs:46-53 | the alert's expiry changes the bus and nothing else in the scene, and keeps the scene valid; soldiers are not commanded back |
| Level.PlayerShoots | Barbalace-TP1/Assets/Scripts/Player/Pistol.cs:70-96 | a shot that leaves the barrel and strikes a soldier deals the pistol's damage to that soldier only; a miss or no shot touches no soldier; the bus and the configurations are untouched and the scene stays valid |
| Level.PistolReloads | Barbalace-TP1/Assets/Scripts/Player/Pistol.cs:115-126 | a due reload touches only the pistol and keeps the scene valid |
| Level.PlayerFrame | Barbalace-TP1/Assets/Scripts/Player/PlayerStats.cs:100-127 | a player frame touches only the player and keeps the scene valid |
| Level.RespawnSoldier | Barbalace-TP1/Assets/Scripts/Enemy/Soldier/EnemyAI.cs:410-431 | the respawned soldier is in Normal at the given health and pose, exactly as `ResetEnemy` leaves it; every other soldier, the bus, the player and the pistol are untouched; the scene stays valid |

## Left out

- Geometry and physics are not modelled: movement, rotation (Slerp), gravity and vertical velocity, `CharacterController.Move`, the NavMesh agent, and the crouch height change. Pose is only changed by respawns.
- The vision test's distance, angle and ray cast are computed by the engine. They enter as a `Percept`, and only the decision taken on them is modelled. The distance the attack checks read after the chase movement is likewise an engine value, the `reach` parameter.
- The pistol's hit scan (camera ray) and its tracer line are not modelled. Which soldier, if any, a shot strikes is a parameter of `Level.PlayerShoots`.
- Floating-point rates and times are modelled as integers: milliseconds, and stamina in thousandths. Rounding of `drainRate * deltaTime` and of `1 / fireRate` is not modelled; `fireInterval` is a parameter.
- The null paths are not modelled: a missing player, `PlayerStats` component, `alertManager.Instance`, `PlayerData` asset, soldier asset (the soldier reads its tunables from it unguarded) or input action, and the older revision's `if (enemyData != null)` guard (Barbalace-TP1/Assets/Scripts/Enemy/EnemyAI.cs:64): the asset is always present and its values are the `Config`. The player and the alert bus are always present. The weapon's absence is modelled (`Option`).
- Input reading (keyboard and Input System actions) is replaced by boolean parameters. The F2 scene reload is out of scope.
- Renderer toggling, cursor locking, Debug logging, the stamina-state change log (`UpdateStaminaState`) and the stored `lastStaminaState` are not modelled.
- The order of subscribers on the alert event is not modelled. `Level` delivers the alert to every other soldier in one step, after the raiser's own frame.
- The singleton's duplicate-destroy in `alertManager.Awake` is not modelled; there is one bus.
- `OnGlobalAlertDisabled` has no subscriber in the modelled code. Its notice is logged only.
- The older revision's `chaseTimer` is set but never read by the code. It is kept as a field with no behaviour attached.
- The two revisions each keep their own `SetState` and `HandleDamageState`, as the code does; the chase step they share is modelled once, in `Pursuit`.
- The latest revision's `damageStateDuration`, `normalSpeed`, `currentSpeed` and `moveSpeed` fields are never used by the state logic.
- Other scripts (camera, UI, medkits, collectables, surveillance camera, respawn manager, pause menu) are not part of this model. The respawn manager's call is represented by `ResetEnemy` and `Level.RespawnSoldier`.
- PlayerStats.Respawn: the stamina refill uses the player's own maximum. This is the same asset value the game reads at respawn time, as long as the asset is not edited during play.

=== FILE: alert_manager.dfy ===
/** The global alert bus: one flag shared by every enemy. Raising it while it is
    down schedules one expiry thirty seconds later and notifies the subscribers;
    raising it while it is up does nothing, so repeated raises never extend the
    window opened by the first one. */
module AlertManager {
  import opened Common

  /** Lifetime of a global alert, scheduled at the moment it is raised. */
  const AlertDuration: int := 30 * MillisPerSecond

  /** `expiry` is the pending end-of-alert continuation; `events` logs the
      notifications the bus has raised. */
  datatype Alert = Alert(isGlobalAlert: bool, expiry: Countdown, events: seq<Notice>)

  /** Exactly one expiry is pending while the alert is up, and none while it is down. */
  predicate Valid(a: Alert)
  {
    a.isGlobalAlert <==> a.expiry.Running?
  }

  /** The bus as the scene creates it. */
  function Init(): (a: Alert)
    ensures Valid(a) && !a.isGlobalAlert && a.events == []
  {
    Alert(false, Stopped, [])
  }

  /** Raises the alert. A no-op while it is already up; otherwise it comes up,
      its expiry is due `AlertDuration` from `now`, and one trigger notice is raised. */
  function Trigger(a: Alert, now: int): (r: Alert)
    ensures a.isGlobalAlert ==> r == a
    ensures !a.isGlobalAlert ==> r.isGlobalAlert && r.expiry == Running(now + AlertDuration)
    ensures !a.isGlobalAlert ==> r.events == a.events + [GlobalAlertTriggered]
    ensures r.isGlobalAlert
    ensures Valid(a) ==> Valid(r)
  {
    if a.isGlobalAlert then a
    else Alert(true, Running(now + AlertDuration), a.events + [GlobalAlertTriggered])
  }

  /** Runs the pending expiry once it is due: the alert goes down and one
      disabled notice is raised. Before the deadline nothing changes. */
  function Expire(a: Alert, now: int): (r: Alert)
    ensures a.expiry.Running? && now >= a.expiry.deadline ==>
              !r.isGlobalAlert && r.expiry == Stopped && r.events == a.events + [GlobalAlertDisabled]
    ensures !(a.expiry.Running? && now >= a.expiry.deadline) ==> r == a
    ensures Valid(a) ==> Valid(r)
  {
    match a.expiry
    case Stopped => a
    case Running(d) =>
      if now >= d then Alert(false, Stopped, a.events + [GlobalAlertDisabled]) else a
  }

  /** Things that can happen to the bus: a raise, or a frame at which a due
      expiry runs. */
  datatype Signal = TriggerAt(t: int) | ExpireAt(t: int)

  function Step(a: Alert, s: Signal): Alert
  {
    match s
    case TriggerAt(t) => Trigger(a, t)
    case ExpireAt(t) => Expire(a, t)
  }

  function Run(a: Alert, signals: seq<Signal>): (r: Alert)
    decreases |signals|
  {
    if signals == [] then a else Run(Step(a, signals[0]), signals[1..])
  }

  predicate AllTriggers(signals: seq<Signal>)
  {
    forall i :: 0 <= i < |signals| ==> signals[i].TriggerAt?
  }

  /** Raises while the alert is up leave the bus exactly as it was: no notice,
      no new expiry, the old deadline untouched. */
  lemma {:induction false} TriggersWhileActiveAreIgnored(a: Alert, signals: seq<Signal>)
    requires a.isGlobalAlert
    requires AllTriggers(signals)
    ensures Run(a, signals) == a
    decreases |signals|
  {
    if signals != [] {
      assert signals[0].TriggerAt?;
      assert AllTriggers(signals[1..]) by {
        forall i | 0 <= i < |signals[1..]| ensures signals[1..][i].TriggerAt? {
          assert signals[1..][i] == signals[i + 1];
        }
      }
      TriggersWhileActiveAreIgnored(Step(a, signals[0]), signals[1..]);
    }
  }

  /** From a quiet bus, a burst of raises (the first at `t0`) opens exactly one
      window ending at `t0 + AlertDuration` and raises exactly one trigger notice. */
  lemma {:induction false} FirstRaiseFixesTheWindow(a: Alert, t0: int, rest: seq<Signal>)
    requires !a.isGlobalAlert
    requires AllTriggers(rest)
    ensures Run(a, [TriggerAt(t0)] + rest).isGlobalAlert
    ensures Run(a, [TriggerAt(t0)] + rest).expiry == Running(t0 + AlertDuration)
    ensures Run(a, [TriggerAt(t0)] + rest).events == a.events + [GlobalAlertTriggered]
    ensures Occurrences(Run(a, [TriggerAt(t0)] + rest).events, GlobalAlertTriggered)
            == Occurrences(a.events, GlobalAlertTriggered) + 1
  {
    var signals := [TriggerAt(t0)] + rest;
    assert signals[0] == TriggerAt(t0);
    assert signals[1..] == rest;
    var up := Trigger(a, t0);
    TriggersWhileActiveAreIgnored(up, rest);
    assert Run(a, signals) == up;
    OccurrencesAppend(a.events, [GlobalAlertTriggered], GlobalAlertTriggered);
    assert Occurrences([GlobalAlertTriggered], GlobalAlertTriggered) == 1 by {
      assert [GlobalAlertTriggered][..0] == [];
    }
  }

  /** Once the window has closed, the next due frame brings the alert down,
      whatever raises came in while it was up. */
  lemma WindowCloses(a: Alert, t0: int, rest: seq<Signal>, t: int)
    requires !a.isGlobalAlert
    requires AllTriggers(rest)
    requires t >= t0 + AlertDuration
    ensures !Expire(Run(a, [TriggerAt(t0)] + rest), t).isGlobalAlert
  {
    FirstRaiseFixesTheWindow(a, t0, rest);
  }

  /** Before the deadline the alert stays up. */
  lemma StaysUpUntilDeadline(a: Alert, now: int)
    requires Valid(a) && a.isGlobalAlert
    requires now < a.expiry.deadline
    ensures Expire(a, now).isGlobalAlert
  {
  }

  /** Validity holds along every run of raises and expiries. */
  lemma {:induction false} RunPreservesValid(a: Alert, signals: seq<Signal>)
    requires Valid(a)
    ensures Valid(Run(a, signals))
    decreases |signals|
  {
    if signals != [] {
      RunPreservesValid(Step(a, signals[0]), signals[1..]);
    }
  }
}

=== FILE: common.dfy ===
/** Values shared by every component of the game logic: poses, optional values,
    delayed continuations and the notifications components raise.

    Game time is counted in whole milliseconds; a duration the game states in
    seconds is multiplied by `MillisPerSecond`. */
module Common {

  const MillisPerSecond: int := 1000

  datatype Vec3 = Vec3(x: int, y: int, z: int)
  datatype Quat = Quat(x: int, y: int, z: int, w: int)

  /** Where a body stands and which way it faces. Movement is not modelled, so a
      pose only changes when a respawn puts it back to a saved one. */
  datatype Pose = Pose(position: Vec3, rotation: Quat)

  /** A reference that may be unassigned (a component that is not attached). */
  datatype Option<T> = None | Some(value: T)

  /** A delayed continuation: either nothing is scheduled, or one run is due at
      `deadline`. A component holding one field of this type can never have two
      runs pending at once. */
  datatype Countdown = Stopped | Running(deadline: int)

  /** Notifications the components raise for their subscribers. */
  datatype Notice =
    | EnemyDied
    | EnemyRespawned
    | PlayerDied            // raised by an enemy's own death, under this name
    | GlobalAlertTriggered
    | GlobalAlertDisabled

  /** Number of times `n` occurs in the notification log `log`. */
  function Occurrences(log: seq<Notice>, n: Notice): (k: nat)
    ensures k <= |log|
    ensures n !in log ==> k == 0
  {
    if log == [] then 0
    else Occurrences(log[..|log| - 1], n) + (if log[|log| - 1] == n then 1 else 0)
  }

  lemma {:induction false} OccurrencesAppend(log: seq<Notice>, extra: seq<Notice>, n: Notice)
    ensures Occurrences(log + extra, n) == Occurrences(log, n) + Occurrences(extra, n)
    decreases |extra|
  {
    if extra == [] {
      assert log + extra == log;
    } else {
      var init := extra[..|extra| - 1];
      assert (log + extra)[..|log + extra| - 1] == log + init;
      OccurrencesAppend(log, init, n);
    }
  }

  function Max(a: int, b: int): (m: int)
    ensures m >= a && m >= b
    ensures m == a || m == b
  {
    if a >= b then a else b
  }

  function Min(a: int, b: int): (m: int)
    ensures m <= a && m <= b
    ensures m == a || m == b
  {
    if a <= b then a else b
  }

  /** Bounds `v` to `[lo, hi]`, testing the lower bound first, as the engine's
      clamp does; when `hi < lo` a value above `hi` still comes back as `hi`. */
  function Clamp(v: int, lo: int, hi: int): (r: int)
    ensures lo <= hi ==> lo <= r <= hi
    ensures lo <= v <= hi ==> r == v
    ensures v < lo ==> r == lo
    ensures lo <= v && hi < v ==> r == hi
  {
    if v < lo then lo else if v > hi then hi else v
  }
}

=== FILE: enemy_ai.dfy ===
/** The enemy state machine, older revision: Normal, Chase, Damage and Dead, no
    patrol route and no global alert. A survived hit sends the enemy straight
    into Chase, and sight or a remembered shot keeps it there. */
module EnemyAI {
  import opened Common
  import Vision
  import PlayerStats
  import EnemyWeapon
  import Pursuit

  datatype State = Normal | Chase | Damage | Dead

  /** Per-enemy tunables: the data-asset values and the component's own combat
      and timing fields. */
  datatype Config = Config(
    maxHealth: int,
    viewDistance: int,
    viewAngle: int,
    tactics: Pursuit.Tactics,    // fallback attack 20 damage, range 2, cooldown 1.5 s by default
    chaseDurationAfterShot: int, // 5 s by default
    damageStateDuration: int)    // 0.5 s by default

  datatype Enemy = Enemy(
    state: State,
    health: int,
    wasShotByPlayer: bool,
    chaseTimer: int,
    damageStateTimer: int,
    arms: Pursuit.Arms,
    controllerEnabled: bool,
    active: bool,
    pose: Pose,
    events: seq<Notice>)

  /** What holds of every enemy reachable from `Awake`: health is never
      negative, a dead enemy has none and is switched off, a live one is
      switched on, a chasing one has been shot or has seen the player, and the
      Damage state is never entered at all. */
  predicate Valid(e: Enemy)
  {
    && e.health >= 0
    && e.state != Damage
    && (e.state == Dead ==> e.health == 0)
    && (e.controllerEnabled <==> e.state != Dead)
    && (e.active <==> e.state != Dead)
    && (e.state == Chase ==> e.wasShotByPlayer)
  }

  /** The enemy as the scene loads it. */
  function Awake(cfg: Config, pose: Pose, weapon: Option<EnemyWeapon.Weapon>): (e: Enemy)
    requires cfg.maxHealth >= 0
    ensures Valid(e) && e.state == Normal && e.health == cfg.maxHealth && !e.wasShotByPlayer
    ensures e.events == [] && e.pose == pose
  {
    Enemy(Normal, cfg.maxHealth, false, 0, 0, Pursuit.Arms(0, weapon), true, true, pose, [])
  }

  /** Changes the state and nothing else; setting the current state again
      changes nothing. */
  function SetState(e: Enemy, s: State): (r: Enemy)
    ensures r.state == s
    ensures e.state == s ==> r == e
    ensures r == e.(state := s)
  {
    if e.state != s then e.(state := s) else e
  }

  /** Starts a chase, remembers the player as hostile and rearms the chase
      timer; ignored when dead. */
  function ForceChase(cfg: Config, e: Enemy): (r: Enemy)
    ensures e.state == Dead ==> r == e
    ensures e.state != Dead ==>
              r == e.(state := Chase, wasShotByPlayer := true, chaseTimer := cfg.chaseDurationAfterShot)
  {
    if e.state == Dead then e
    else SetState(e, Chase).(wasShotByPlayer := true, chaseTimer := cfg.chaseDurationAfterShot)
  }

  /** Result of an operation that can also affect the player. */
  datatype Outcome = Outcome(enemy: Enemy, player: PlayerStats.Player)

  /** Death: Dead, switched off, the player's stamina recovery resumed, and the
      death notices raised once. */
  function Die(e: Enemy, player: PlayerStats.Player): (r: Outcome)
    ensures r.enemy.state == Dead && !r.enemy.active && !r.enemy.controllerEnabled
    ensures r.enemy.events == e.events + [EnemyDied, PlayerDied]
    ensures r.enemy.health == e.health
    // nothing else about the enemy changes: shot memory, timers, arms and pose carry over
    ensures r.enemy == e.(state := Dead, active := false, controllerEnabled := false,
                          events := e.events + [EnemyDied, PlayerDied])
    ensures r.player == PlayerStats.PauseRecovery(player, false)
  {
    Outcome(SetState(e, Dead).(active := false, controllerEnabled := false,
                               events := e.events + [EnemyDied, PlayerDied]),
            PlayerStats.PauseRecovery(player, false))
  }

  /** A hit of `amount`. Dead enemies ignore it. Health drops to
      `max(0, health - amount)`; a survivor goes straight to Chase with the
      stagger and chase timers armed and the shot remembered; otherwise it dies. */
  function TakeDamage(cfg: Config, e: Enemy, player: PlayerStats.Player, amount: int): (r: Outcome)
    ensures e.state == Dead ==> r == Outcome(e, player)
    ensures e.state != Dead ==> r.enemy.health == Max(0, e.health - amount)
    ensures e.state != Dead && e.health - amount > 0 ==>
              && r.enemy.state == Chase
              && r.enemy.damageStateTimer == cfg.damageStateDuration
              && r.enemy.wasShotByPlayer
              && r.enemy.chaseTimer == cfg.chaseDurationAfterShot
              && r.player == player
    ensures e.state != Dead && e.health - amount <= 0 ==>
              && r.enemy.state == Dead && r.enemy.health == 0
              && r.enemy.events == e.events + [EnemyDied, PlayerDied]
              && r.player == PlayerStats.PauseRecovery(player, false)
    // a survived hit changes only health, state, the two timers and the shot memory
    ensures e.state != Dead && e.health - amount > 0 ==>
              r.enemy == e.(health := r.enemy.health, state := Chase, damageStateTimer := cfg.damageStateDuration,
                            wasShotByPlayer := true, chaseTimer := cfg.chaseDurationAfterShot)
    // a lethal hit is a death at zero health
    ensures e.state != Dead && e.health - amount <= 0 ==> r == Die(e.(health := 0), player)
    ensures Valid(e) ==> Valid(r.enemy)
  {
    if e.state == Dead then Outcome(e, player)
    else
      var h := Max(0, e.health - amount);
      if h > 0 then
        Outcome(SetState(e.(health := h), Chase).(damageStateTimer := cfg.damageStateDuration,
                                                   wasShotByPlayer := true,
                                                   chaseTimer := cfg.chaseDurationAfterShot), player)
      else Die(e.(health := h), player)
  }

  /** The stagger: in Damage, the timer runs down by `dt`; once it is spent the
      enemy chases if it sees the player and returns to Normal otherwise.
      Outside Damage nothing changes. */
  function HandleDamageState(e: Enemy, dt: nat, sees: bool): (r: Enemy)
    ensures e.state != Damage ==> r == e
    ensures e.state == Damage ==> r.damageStateTimer == e.damageStateTimer - dt
    ensures e.state == Damage && r.damageStateTimer > 0 ==> r.state == Damage
    ensures e.state == Damage && r.damageStateTimer <= 0 ==> r.state == (if sees then Chase else Normal)
    ensures r == e.(state := r.state, damageStateTimer := r.damageStateTimer)
  {
    if e.state != Damage then e
    else
      var t := e.damageStateTimer - dt;
      if t <= 0 then SetState(e.(damageStateTimer := t), if sees then Chase else Normal)
      else e.(damageStateTimer := t)
  }

  function Sees(cfg: Config, sight: Vision.Percept): bool
  {
    Vision.InConeOfVision(cfg.viewDistance, cfg.viewAngle, sight)
  }

  /** One frame. A dead enemy does nothing. Otherwise the stagger is advanced;
      sight or a remembered shot starts a chase; a chasing enemy then runs its
      chase step (the Normal state's patrol does nothing in this revision). */
  function Update(cfg: Config, e: Enemy, player: PlayerStats.Player,
                  now: int, dt: nat, sight: Vision.Percept, reach: int): (r: Outcome)
    ensures e.state == Dead ==> r == Outcome(e, player)
    ensures e.state != Dead && (Sees(cfg, sight) || e.wasShotByPlayer) ==>
              r.enemy.state == Chase && r.enemy.wasShotByPlayer
              && r.enemy.chaseTimer == cfg.chaseDurationAfterShot
    ensures e.state == Normal && !Sees(cfg, sight) && !e.wasShotByPlayer ==> r == Outcome(e, player)
    // the chase step runs, with the enemy's arms and at the post-move distance
    // `reach`, whenever the frame ends chasing; otherwise the player and the
    // arms are untouched
    ensures e.state != Dead && (Sees(cfg, sight) || e.wasShotByPlayer || e.state == Chase) ==>
              var o := Pursuit.ChasePlayer(cfg.tactics, e.arms, player, now, dt, reach);
              r.player == o.player && r.enemy.arms == o.arms
    ensures !(Sees(cfg, sight) || e.wasShotByPlayer || e.state == Chase) ==>
              r.player == player && r.enemy.arms == e.arms
    ensures r.enemy.health == e.health && r.enemy.events == e.events
    // a frame changes only the state, shot memory, timers and arms; the stagger
    // timer moves only in Damage
    ensures r.enemy == e.(state := r.enemy.state, wasShotByPlayer := r.enemy.wasShotByPlayer,
                          chaseTimer := r.enemy.chaseTimer, damageStateTimer := r.enemy.damageStateTimer,
                          arms := r.enemy.arms)
    ensures e.state != Damage ==> r.enemy.damageStateTimer == e.damageStateTimer
    ensures PlayerStats.Valid(player) ==> PlayerStats.Valid(r.player)
    ensures Valid(e) ==> Valid(r.enemy)
  {
    if e.state == Dead then Outcome(e, player)
    else
      var sees := Sees(cfg, sight);
      var e1 := HandleDamageState(e, dt, sees);
      var e2 := if sees || e1.wasShotByPlayer then ForceChase(cfg, e1) else e1;
      match e2.state
      case Chase =>
        var o := Pursuit.ChasePlayer(cfg.tactics, e2.arms, player, now, dt, reach);
        Outcome(e2.(arms := o.arms), o.player)
      case _ => Outcome(e2, player)
  }

  /** Brings the enemy back: switched on at the given pose with `healthToSet`
      health, in Normal, stagger timer cleared, a respawn notice raised. The
      shot memory, the chase timer and the attack cooldowns carry over. */
  function ResetEnemy(e: Enemy, healthToSet: int, pose: Pose): (r: Enemy)
    ensures r.state == Normal && r.health == healthToSet && r.damageStateTimer == 0
    ensures r.active && r.controllerEnabled && r.pose == pose
    ensures r.events == e.events + [EnemyRespawned]
    ensures r.wasShotByPlayer == e.wasShotByPlayer && r.chaseTimer == e.chaseTimer
    // the attack cooldowns carry over as well, and nothing else changes
    ensures r.arms == e.arms
    ensures r == e.(state := Normal, health := healthToSet, damageStateTimer := 0, active := true,
                    controllerEnabled := true, pose := pose, events := e.events + [EnemyRespawned])
    ensures healthToSet >= 0 && Valid(e) ==> Valid(r)
  {
    SetState(e.(active := true, damageStateTimer := 0, controllerEnabled := true, pose := pose,
                health := healthToSet), Normal)
      .(events := e.events + [EnemyRespawned])
  }

  // ------------------------------------------------------------ runs

  datatype Action =
    | Frame(now: int, dt: nat, sight: Vision.Percept, reach: int)
    | Shot(amount: int)
    | Chased
    | Respawn(healthToSet: nat, pose: Pose)

  function Step(cfg: Config, s: Outcome, a: Action): Outcome
  {
    match a
    case Frame(now, dt, sight, reach) => Update(cfg, s.enemy, s.player, now, dt, sight, reach)
    case Shot(amount) => TakeDamage(cfg, s.enemy, s.player, amount)
    case Chased => Outcome(ForceChase(cfg, s.enemy), s.player)
    case Respawn(hp, pose) => Outcome(ResetEnemy(s.enemy, hp, pose), s.player)
  }

  function Run(cfg: Config, s: Outcome, actions: seq<Action>): Outcome
    decreases |actions|
  {
    if actions == [] then s else Run(cfg, Step(cfg, s, actions[0]), actions[1..])
  }

  /** Along every run the enemy stays valid; in particular this revision never
      enters Damage, so its stagger handling never acts. */
  lemma {:induction false} RunPreservesValid(cfg: Config, s: Outcome, actions: seq<Action>)
    requires Valid(s.enemy) && PlayerStats.Valid(s.player)
    ensures Valid(Run(cfg, s, actions).enemy) && PlayerStats.Valid(Run(cfg, s, actions).player)
    ensures Run(cfg, s, actions).enemy.state != Damage
    decreases |actions|
  {
    if actions != [] {
      var a := actions[0];
      match a {
      case Frame(now, dt, sight, reach) =>
      case Shot(amount) =>
        assert PlayerStats.Valid(TakeDamage(cfg, s.enemy, s.player, amount).player) by {
          if s.enemy.state != Dead && s.enemy.health - amount <= 0 {
            assert TakeDamage(cfg, s.enemy, s.player, amount).player == PlayerStats.PauseRecovery(s.player, false);
          }
        }
      case Chased =>
      case Respawn(hp, pose) =>
      }
      RunPreservesValid(cfg, Step(cfg, s, a), actions[1..]);
    }
  }

  predicate NoRespawn(actions: seq<Action>)
  {
    forall i :: 0 <= i < |actions| ==> !actions[i].Respawn?
  }

  /** Dead is absorbing: without a respawn nothing changes a dead enemy or,
      through it, the player. */
  lemma {:induction false} DeadIsAbsorbing(cfg: Config, s: Outcome, actions: seq<Action>)
    requires s.enemy.state == Dead
    requires NoRespawn(actions)
    ensures Run(cfg, s, actions) == s
    decreases |actions|
  {
    if actions != [] {
      assert !actions[0].Respawn?;
      assert Step(cfg, s, actions[0]) == s;
      assert NoRespawn(actions[1..]) by {
        forall i | 0 <= i < |actions[1..]| ensures !actions[1..][i].Respawn? {
          assert actions[1..][i] == actions[i + 1];
        }
      }
      DeadIsAbsorbing(cfg, s, actions[1..]);
    }
  }

  /** Nothing clears the memory of a shot, not death and not a respawn, so
      once shot, every live frame of this enemy ends in Chase (see `Update`). */
  lemma {:induction false} ShotIsNeverForgotten(cfg: Config, s: Outcome, actions: seq<Action>)
    requires s.enemy.wasShotByPlayer
    ensures Run(cfg, s, actions).enemy.wasShotByPlayer
    decreases |actions|
  {
    if actions != [] {
      var a := actions[0];
      assert Step(cfg, s, a).enemy.wasShotByPlayer by {
        match a {
        case Frame(now, dt, sight, reach) =>
          if s.enemy.state != Dead {
            assert Update(cfg, s.enemy, s.player, now, dt, sight, reach).enemy.wasShotByPlayer;
          }
        case Shot(amount) =>
        case Chased =>
        case Respawn(hp, pose) =>
        }
      }
      ShotIsNeverForgotten(cfg, Step(cfg, s, a), actions[1..]);
    }
  }
}

=== FILE: enemy_weapon.dfy ===
/** An enemy's weapon: a cooldown gate in front of the player's damage entry point. */
module EnemyWeapon {
  import opened Common
  import PlayerStats

  /** `nextAttackTime` is the earliest time (ms) of the next allowed attack. */
  datatype Weapon = Weapon(damage: int, attackRange: int, attackCooldown: int, nextAttackTime: int)

  /** A weapon as attached to an enemy: ready from time 0 on. */
  function Init(damage: int, attackRange: int, attackCooldown: int): (w: Weapon)
    ensures w.nextAttackTime == 0
    ensures w.damage == damage && w.attackRange == attackRange && w.attackCooldown == attackCooldown
  {
    Weapon(damage, attackRange, attackCooldown, 0)
  }

  /** Outcome of an attack attempt: the weapon, the player, and whether it struck. */
  datatype Attack = Attack(weapon: Weapon, player: PlayerStats.Player, struck: bool)

  /** Attacks when the cooldown has elapsed: the player takes the weapon's damage
      once and the next attack is pushed a cooldown away. An early attempt
      changes nothing at all. */
  function TryAttack(w: Weapon, player: PlayerStats.Player, now: int): (r: Attack)
    ensures r.struck <==> now >= w.nextAttackTime
    ensures r.struck ==> r.weapon == w.(nextAttackTime := now + w.attackCooldown)
    ensures r.struck ==> r.player == PlayerStats.TakeDamage(player, w.damage)
    ensures !r.struck ==> r.weapon == w && r.player == player
    ensures PlayerStats.Valid(player) ==> PlayerStats.Valid(r.player)
  {
    if now >= w.nextAttackTime then
      Attack(w.(nextAttackTime := now + w.attackCooldown), PlayerStats.TakeDamage(player, w.damage), true)
    else
      Attack(w, player, false)
  }

  /** The first attempt at any non-negative time succeeds. */
  lemma FirstAttackStrikes(damage: int, attackRange: int, attackCooldown: int,
                           player: PlayerStats.Player, now: int)
    requires now >= 0
    ensures TryAttack(Init(damage, attackRange, attackCooldown), player, now).struck
  {
  }

  /** The times, among `attempts`, at which the weapon actually struck. */
  function Strikes(w: Weapon, player: PlayerStats.Player, attempts: seq<int>): (hits: seq<int>)
    ensures |hits| <= |attempts|
    ensures |hits| > 0 ==> hits[0] >= w.nextAttackTime
    ensures forall i :: 0 <= i < |hits| ==> hits[i] in attempts
    decreases |attempts|
  {
    if attempts == [] then []
    else
      var a := TryAttack(w, player, attempts[0]);
      var rest := Strikes(a.weapon, a.player, attempts[1..]);
      assert forall i :: 0 <= i < |rest| ==> rest[i] in attempts by {
        forall i | 0 <= i < |rest| ensures rest[i] in attempts {
          assert rest[i] in attempts[1..];
        }
      }
      if a.struck then [attempts[0]] + rest else rest
  }

  /** Any two consecutive strikes are at least a cooldown apart, whatever the
      order and spacing of the attempts. */
  predicate Spaced(hits: seq<int>, cooldown: int)
  {
    forall i :: 0 <= i < |hits| - 1 ==> hits[i] + cooldown <= hits[i + 1]
  }

  lemma {:induction false} StrikesAreSpaced(w: Weapon, player: PlayerStats.Player, attempts: seq<int>)
    ensures Spaced(Strikes(w, player, attempts), w.attackCooldown)
    decreases |attempts|
  {
    if attempts != [] {
      var a := TryAttack(w, player, attempts[0]);
      var rest := Strikes(a.weapon, a.player, attempts[1..]);
      StrikesAreSpaced(a.weapon, a.player, attempts[1..]);
      assert a.weapon.attackCooldown == w.attackCooldown;
      if a.struck {
        var hits := [attempts[0]] + rest;
        assert Strikes(w, player, attempts) == hits;
        assert a.weapon.nextAttackTime == attempts[0] + w.attackCooldown;
        forall i | 0 <= i < |hits| - 1 ensures hits[i] + w.attackCooldown <= hits[i + 1] {
          if i > 0 {
            assert hits[i] == rest[i - 1] && hits[i + 1] == rest[i];
            assert rest[i - 1] + w.attackCooldown <= rest[i - 1 + 1];
          } else {
            assert hits[0] == attempts[0] && hits[1] == rest[0];
          }
        }
      } else {
        assert Strikes(w, player, attempts) == rest;
      }
    }
  }
}

=== FILE: level.dfy ===
/** The scene as a whole: the soldiers (latest revision), the shared alert bus,
    the player and the player's pistol. This is where the bus's notification
    reaches every soldier (each one subscribes its alert reaction when it
    starts) and where a pistol hit is delivered to the soldier it struck. */
module Level {
  import opened Common
  import Vision
  import AlertManager
  import PlayerStats
  import Pistol
  import SoldierEnemyAI

  /** One soldier with its own tunables (route length, vision, attack values). */
  datatype Agent = Agent(cfg: SoldierEnemyAI.Config, enemy: SoldierEnemyAI.Enemy)

  datatype World = World(
    agents: seq<Agent>,
    bus: AlertManager.Alert,
    player: PlayerStats.Player,
    playerCfg: PlayerStats.Config,
    pistol: Pistol.Pistol,
    pistolCfg: Pistol.Config)

  predicate ValidAgent(a: Agent)
  {
    SoldierEnemyAI.Valid(a.cfg, a.enemy)
  }

  predicate Valid(w: World)
  {
    && (forall i :: 0 <= i < |w.agents| ==> ValidAgent(w.agents[i]))
    && AlertManager.Valid(w.bus)
    && PlayerStats.ValidConfig(w.playerCfg) && PlayerStats.Valid(w.player)
    && Pistol.ValidConfig(w.pistolCfg) && Pistol.Valid(w.pistolCfg, w.pistol)
  }

  /** Delivers the bus's alert notification to every soldier except the one at
      `source` (which reacts inside its own operation). Dead soldiers ignore it;
      every other one ends up chasing. */
  function NotifyAlert(agents: seq<Agent>, source: int): (r: seq<Agent>)
    ensures |r| == |agents|
    ensures forall i :: 0 <= i < |r| ==> r[i].cfg == agents[i].cfg
    ensures forall i :: 0 <= i < |r| && i != source ==>
              r[i].enemy == SoldierEnemyAI.ForceAlert(agents[i].enemy)
    ensures 0 <= source < |r| ==> r[source] == agents[source]
    ensures forall i :: 0 <= i < |r| && i != source && agents[i].enemy.state != SoldierEnemyAI.Dead ==>
              r[i].enemy.state == SoldierEnemyAI.Chase
    ensures forall i :: 0 <= i < |r| && agents[i].enemy.state == SoldierEnemyAI.Dead ==> r[i] == agents[i]
  {
    seq(|agents|, i requires 0 <= i < |agents| =>
      if i == source then agents[i] else Agent(agents[i].cfg, SoldierEnemyAI.ForceAlert(agents[i].enemy)))
  }

  lemma NotifyAlertPreservesValid(agents: seq<Agent>, source: int)
    requires forall i :: 0 <= i < |agents| ==> ValidAgent(agents[i])
    ensures var r := NotifyAlert(agents, source);
            forall i :: 0 <= i < |r| ==> ValidAgent(r[i])
  {
    var r := NotifyAlert(agents, source);
    forall i | 0 <= i < |r| ensures ValidAgent(r[i]) {
      assert ValidAgent(agents[i]);
      if i != source {
        SoldierEnemyAI.ForceAlertPreservesValid(agents[i].cfg, agents[i].enemy);
      }
    }
  }

  /** A frame of soldier `i`. If it raised the alert, every other soldier gets
      the notification in the same frame. */
  function SoldierFrame(w: World, i: nat, now: int, dt: nat, sight: Vision.Percept, flatDistance: int, reach: int): (r: World)
    requires i < |w.agents|
    ensures |r.agents| == |w.agents|
    ensures var a := w.agents[i];
            var t := SoldierEnemyAI.Update(a.cfg, a.enemy, w.bus, w.player, now, dt, sight, flatDistance, reach);
            && r.agents[i] == Agent(a.cfg, t.enemy) && r.bus == t.bus && r.player == t.player
            && (!w.bus.isGlobalAlert && t.bus.isGlobalAlert ==> r.agents == NotifyAlert(w.agents[i := r.agents[i]], i))
            && (w.bus.isGlobalAlert || !t.bus.isGlobalAlert ==> r.agents == w.agents[i := r.agents[i]])
    ensures r == w.(agents := r.agents, bus := r.bus, player := r.player)
  {
    var a := w.agents[i];
    var t := SoldierEnemyAI.Update(a.cfg, a.enemy, w.bus, w.player, now, dt, sight, flatDistance, reach);
    var agents := w.agents[i := Agent(a.cfg, t.enemy)];
    var raised := !w.bus.isGlobalAlert && t.bus.isGlobalAlert;
    w.(agents := if raised then NotifyAlert(agents, i) else agents, bus := t.bus, player := t.player)
  }

  /** When a soldier sees the player (or remembers being shot), the whole
      squad ends the frame chasing: the raiser itself, and every other soldier
      still alive. */
  lemma SightAlertsTheSquad(w: World, i: nat, now: int, dt: nat, sight: Vision.Percept, flatDistance: int, reach: int)
    requires Valid(w) && i < |w.agents|
    requires !w.bus.isGlobalAlert
    requires w.agents[i].enemy.state != SoldierEnemyAI.Dead
    requires SoldierEnemyAI.Sees(w.agents[i].cfg, sight) || w.agents[i].enemy.wasShotByPlayer
    ensures var r := SoldierFrame(w, i, now, dt, sight, flatDistance, reach);
            r.bus.isGlobalAlert
            && forall j :: 0 <= j < |r.agents| && w.agents[j].enemy.state != SoldierEnemyAI.Dead ==>
                 r.agents[j].enemy.state == SoldierEnemyAI.Chase
  {
    var r := SoldierFrame(w, i, now, dt, sight, flatDistance, reach);
    var a := w.agents[i];
    var t := SoldierEnemyAI.Update(a.cfg, a.enemy, w.bus, w.player, now, dt, sight, flatDistance, reach);
    assert t.bus.isGlobalAlert;
    var agents := w.agents[i := Agent(a.cfg, t.enemy)];
    assert r.agents == NotifyAlert(agents, i);
    forall j | 0 <= j < |r.agents| && w.agents[j].enemy.state != SoldierEnemyAI.Dead
      ensures r.agents[j].enemy.state == SoldierEnemyAI.Chase
    {
      if j != i {
        assert agents[j] == w.agents[j];
      }
    }
  }

  lemma SoldierFramePreservesValid(w: World, i: nat, now: int, dt: nat, sight: Vision.Percept, flatDistance: int, reach: int)
    requires Valid(w) && i < |w.agents|
    ensures Valid(SoldierFrame(w, i, now, dt, sight, flatDistance, reach))
  {
    var a := w.agents[i];
    assert ValidAgent(a);
    SoldierEnemyAI.UpdatePreservesValid(a.cfg, a.enemy, w.bus, w.player, now, dt, sight, flatDistance, reach);
    var t := SoldierEnemyAI.Update(a.cfg, a.enemy, w.bus, w.player, now, dt, sight, flatDistance, reach);
    var agents := w.agents[i := Agent(a.cfg, t.enemy)];
    assert forall j :: 0 <= j < |agents| ==> ValidAgent(agents[j]);
    NotifyAlertPreservesValid(agents, i);
  }

  /** Soldier `i`'s alert countdown comes due; if that raises the alert, every
      other soldier gets the notification. */
  function SoldierCountdown(w: World, i: nat, now: int): (r: World)
    requires i < |w.agents|
    ensures |r.agents| == |w.agents|
    ensures r == w.(agents := r.agents, bus := r.bus)
    ensures var a := w.agents[i];
            var q := SoldierEnemyAI.AlertCountdown(a.enemy, w.bus, now);
            && r.bus == q.bus && r.agents[i] == Agent(a.cfg, q.enemy)
            && (!w.bus.isGlobalAlert && q.bus.isGlobalAlert ==> r.agents == NotifyAlert(w.agents[i := r.agents[i]], i))
            && (w.bus.isGlobalAlert || !q.bus.isGlobalAlert ==> r.agents == w.agents[i := r.agents[i]])
  {
    var a := w.agents[i];
    var q := SoldierEnemyAI.AlertCountdown(a.enemy, w.bus, now);
    var agents := w.agents[i := Agent(a.cfg, q.enemy)];
    var raised := !w.bus.isGlobalAlert && q.bus.isGlobalAlert;
    w.(agents := if raised then NotifyAlert(agents, i) else agents, bus := q.bus)
  }

  lemma SoldierCountdownPreservesValid(w: World, i: nat, now: int)
    requires Valid(w) && i < |w.agents|
    ensures Valid(SoldierCountdown(w, i, now))
  {
    var a := w.agents[i];
    assert ValidAgent(a);
    SoldierEnemyAI.AlertCountdownPreservesValid(a.enemy, a.cfg, w.bus, now);
    var q := SoldierEnemyAI.AlertCountdown(a.enemy, w.bus, now);
    var agents := w.agents[i := Agent(a.cfg, q.enemy)];
    assert forall j :: 0 <= j < |agents| ==> ValidAgent(agents[j]);
    NotifyAlertPreservesValid(agents, i);
  }

  /** When a live soldier's countdown comes due under a quiet bus, the alert
      goes up and the whole squad ends the operation chasing: the soldier
      itself, and every other soldier still alive. */
  lemma CountdownAlertsTheSquad(w: World, i: nat, now: int)
    requires i < |w.agents|
    requires !w.bus.isGlobalAlert
    requires w.agents[i].enemy.state != SoldierEnemyAI.Dead
    requires w.agents[i].enemy.alertTimer.Running? && now >= w.agents[i].enemy.alertTimer.deadline
    ensures var r := SoldierCountdown(w, i, now);
            r.bus.isGlobalAlert
            && forall j :: 0 <= j < |r.agents| && w.agents[j].enemy.state != SoldierEnemyAI.Dead ==>
                 r.agents[j].enemy.state == SoldierEnemyAI.Chase
  {
    var r := SoldierCountdown(w, i, now);
    var a := w.agents[i];
    var q := SoldierEnemyAI.AlertCountdown(a.enemy, w.bus, now);
    assert q.bus.isGlobalAlert;
    var agents := w.agents[i := Agent(a.cfg, q.enemy)];
    assert r.agents == NotifyAlert(agents, i);
    forall j | 0 <= j < |r.agents| && w.agents[j].enemy.state != SoldierEnemyAI.Dead
      ensures r.agents[j].enemy.state == SoldierEnemyAI.Chase
    {
      if j != i {
        assert agents[j] == w.agents[j];
      }
    }
  }

  /** The alert's expiry comes due. Soldiers are not commanded back: they only
      see the bus go down on their next frame. */
  function AlertExpiry(w: World, now: int): (r: World)
    ensures r.agents == w.agents && r.bus == AlertManager.Expire(w.bus, now)
    ensures r == w.(bus := AlertManager.Expire(w.bus, now))
    ensures Valid(w) ==> Valid(r)
  {
    w.(bus := AlertManager.Expire(w.bus, now))
  }

  /** A pistol frame. A shot that left the barrel and struck soldier `target`
      deals the pistol's damage to it; a miss, or no shot, touches no soldier. */
  function PlayerShoots(w: World, now: int, attackTriggered: bool, rechargeTriggered: bool,
                        target: Option<nat>): (r: World)
    ensures var f := Pistol.Update(w.pistolCfg, w.pistol, now, attackTriggered, rechargeTriggered);
            r.pistol == f.pistol
            && (f.fired && target.Some? && target.value < |w.agents| ==>
                  var a := w.agents[target.value];
                  var o := SoldierEnemyAI.TakeDamage(a.cfg, a.enemy, w.player, w.pistolCfg.damage, now);
                  r.agents == w.agents[target.value := Agent(a.cfg, o.enemy)] && r.player == o.player)
            && (!(f.fired && target.Some? && target.value < |w.agents|) ==>
                  r.agents == w.agents && r.player == w.player)
    ensures r.bus == w.bus
    ensures r == w.(agents := r.agents, player := r.player, pistol := r.pistol)
    ensures Valid(w) ==> Valid(r)
  {
    var f := Pistol.Update(w.pistolCfg, w.pistol, now, attackTriggered, rechargeTriggered);
    match target
    case Some(j) =>
      if f.fired && j < |w.agents| then
        var a := w.agents[j];
        assert ValidAgent(a) <== Valid(w);
        var o := SoldierEnemyAI.TakeDamage(a.cfg, a.enemy, w.player, w.pistolCfg.damage, now);
        assert PlayerStats.Valid(o.player) <== PlayerStats.Valid(w.player);
        w.(pistol := f.pistol, agents := w.agents[j := Agent(a.cfg, o.enemy)], player := o.player)
      else w.(pistol := f.pistol)
    case None => w.(pistol := f.pistol)
  }

  /** A running reload completes when due. */
  function PistolReloads(w: World, now: int): (r: World)
    ensures r == w.(pistol := Pistol.FinishRecharge(w.pistolCfg, w.pistol, now))
    ensures Valid(w) ==> Valid(r)
  {
    w.(pistol := Pistol.FinishRecharge(w.pistolCfg, w.pistol, now))
  }

  /** A player frame. */
  function PlayerFrame(w: World, input: PlayerStats.Input): (r: World)
    ensures r == w.(player := PlayerStats.Update(w.playerCfg, w.player, input).player)
    ensures Valid(w) ==> Valid(r)
  {
    w.(player := PlayerStats.Update(w.playerCfg, w.player, input).player)
  }

  /** The respawn key for soldier `i`: it is reset to the saved pose and health. */
  function RespawnSoldier(w: World, i: nat, healthToSet: nat, pose: Pose): (r: World)
    requires i < |w.agents|
    ensures |r.agents| == |w.agents|
    ensures r.agents[i].enemy.state == SoldierEnemyAI.Normal && r.agents[i].enemy.health == healthToSet
    ensures r.agents[i].enemy.pose == pose
    ensures forall j :: 0 <= j < |w.agents| && j != i ==> r.agents[j] == w.agents[j]
    // only that soldier changes, as the respawn resets it; bus, player and pistol are untouched
    ensures r == w.(agents := w.agents[i := Agent(w.agents[i].cfg,
                                                  SoldierEnemyAI.ResetEnemy(w.agents[i].enemy, healthToSet, pose))])
    ensures Valid(w) ==> Valid(r)
  {
    var a := w.agents[i];
    assert Valid(w) ==> SoldierEnemyAI.Valid(a.cfg, SoldierEnemyAI.ResetEnemy(a.enemy, healthToSet, pose)) by {
      if Valid(w) {
        assert ValidAgent(a);
        SoldierEnemyAI.ResetEnemyPreservesValid(a.cfg, a.enemy, healthToSet, pose);
      }
    }
    w.(agents := w.agents[i := Agent(a.cfg, SoldierEnemyAI.ResetEnemy(a.enemy, healthToSet, pose))])
  }
}

=== FILE: pistol.dfy ===
/** The player's pistol: a magazine counter, a fire-rate gate and a two-phase
    reload (it starts on the reload key and completes after a fixed delay). */
module Pistol {
  import opened Common

  /** Reload time, fixed at one and a half seconds. */
  const RechargeDelay: int := 1500

  /** `fireInterval` is the time between shots, the reciprocal of the fire rate. */
  datatype Config = Config(magazineSize: int, fireInterval: int, damage: int)

  predicate ValidConfig(cfg: Config)
  {
    cfg.magazineSize >= 0
  }

  /** `rechargeDoneAt` is when a running reload completes. */
  datatype Pistol = Pistol(currentAmmo: int, isRecharging: bool, nextTimeToFire: int, rechargeDoneAt: int)

  /** The magazine never holds a negative count nor more than it can take. */
  predicate Valid(cfg: Config, g: Pistol)
  {
    0 <= g.currentAmmo <= cfg.magazineSize
  }

  /** The pistol as the scene loads it: magazine full, ready to fire. */
  function Awake(cfg: Config): (g: Pistol)
    requires ValidConfig(cfg)
    ensures Valid(cfg, g)
    ensures g.currentAmmo == cfg.magazineSize && !g.isRecharging && g.nextTimeToFire == 0
  {
    Pistol(cfg.magazineSize, false, 0, 0)
  }

  /** Starts a reload unless one is running or the magazine is already full. */
  function TryRecharge(cfg: Config, g: Pistol, now: int): (r: Pistol)
    ensures g.isRecharging || g.currentAmmo == cfg.magazineSize ==> r == g
    ensures !g.isRecharging && g.currentAmmo != cfg.magazineSize ==>
              r.isRecharging && r.rechargeDoneAt == now + RechargeDelay
    ensures r.currentAmmo == g.currentAmmo && r.nextTimeToFire == g.nextTimeToFire
  {
    if g.isRecharging || g.currentAmmo == cfg.magazineSize then g
    else g.(isRecharging := true, rechargeDoneAt := now + RechargeDelay)
  }

  /** Completes a running reload once its delay has elapsed: the magazine is
      refilled and firing is allowed again. */
  function FinishRecharge(cfg: Config, g: Pistol, now: int): (r: Pistol)
    ensures g.isRecharging && now >= g.rechargeDoneAt ==>
              r.currentAmmo == cfg.magazineSize && !r.isRecharging
    ensures !(g.isRecharging && now >= g.rechargeDoneAt) ==> r == g
    ensures r.nextTimeToFire == g.nextTimeToFire
    ensures ValidConfig(cfg) && Valid(cfg, g) ==> Valid(cfg, r)
  {
    if g.isRecharging && now >= g.rechargeDoneAt then g.(currentAmmo := cfg.magazineSize, isRecharging := false)
    else g
  }

  /** A frame's result: the pistol and whether a shot left the barrel. */
  datatype Frame = Frame(pistol: Pistol, fired: bool)

  /** One frame. A trigger pull fires when no reload is running, the fire-rate
      gate is open and a round is left; firing spends exactly one round and
      closes the gate for `fireInterval`. An empty magazine only clicks. The
      reload key is then honoured. */
  function Update(cfg: Config, g: Pistol, now: int, attackTriggered: bool, rechargeTriggered: bool): (r: Frame)
    ensures r.fired <==> !g.isRecharging && attackTriggered && now >= g.nextTimeToFire && g.currentAmmo > 0
    ensures r.fired ==> r.pistol.currentAmmo == g.currentAmmo - 1 && r.pistol.nextTimeToFire == now + cfg.fireInterval
    ensures !r.fired ==> r.pistol.currentAmmo == g.currentAmmo && r.pistol.nextTimeToFire == g.nextTimeToFire
    // the reload key starts a reload unless one is running or the magazine,
    // after this frame's shot, is full; otherwise the reload state is untouched
    ensures rechargeTriggered && !g.isRecharging && r.pistol.currentAmmo != cfg.magazineSize ==>
              r.pistol.isRecharging && r.pistol.rechargeDoneAt == now + RechargeDelay
    ensures !(rechargeTriggered && !g.isRecharging && r.pistol.currentAmmo != cfg.magazineSize) ==>
              r.pistol.isRecharging == g.isRecharging && r.pistol.rechargeDoneAt == g.rechargeDoneAt
    ensures Valid(cfg, g) ==> Valid(cfg, r.pistol)
  {
    var pulled := !g.isRecharging && attackTriggered && now >= g.nextTimeToFire;
    var fired := pulled && g.currentAmmo > 0;
    var g1 := if fired then Shoot(g.(nextTimeToFire := now + cfg.fireInterval)) else g;
    var g2 := if rechargeTriggered then TryRecharge(cfg, g1, now) else g1;
    Frame(g2, fired)
  }

  /** Spends one round. */
  function Shoot(g: Pistol): (r: Pistol)
    ensures r.currentAmmo == g.currentAmmo - 1
    ensures r == g.(currentAmmo := r.currentAmmo)
  {
    g.(currentAmmo := g.currentAmmo - 1)
  }

  /** The trigger pulls and reload presses of one frame. */
  datatype Pull = Pull(now: int, attackTriggered: bool, rechargeTriggered: bool)

  /** Runs frames in order; returns the pistol and the number of shots fired. */
  function Fire(cfg: Config, g: Pistol, frames: seq<Pull>): (r: (Pistol, nat))
    decreases |frames|
  {
    if frames == [] then (g, 0)
    else
      var f := Update(cfg, g, frames[0].now, frames[0].attackTriggered, frames[0].rechargeTriggered);
      var rest := Fire(cfg, f.pistol, frames[1..]);
      (rest.0, rest.1 + (if f.fired then 1 else 0))
  }

  /** Without a completed reload, the shots fired are exactly the rounds that
      left the magazine, so they never outnumber the rounds it held. */
  lemma {:induction false} ShotsComeFromTheMagazine(cfg: Config, g: Pistol, frames: seq<Pull>)
    requires Valid(cfg, g)
    ensures Fire(cfg, g, frames).1 == g.currentAmmo - Fire(cfg, g, frames).0.currentAmmo
    ensures Fire(cfg, g, frames).1 <= g.currentAmmo
    ensures Valid(cfg, Fire(cfg, g, frames).0)
    decreases |frames|
  {
    if frames != [] {
      var f := Update(cfg, g, frames[0].now, frames[0].attackTriggered, frames[0].rechargeTriggered);
      ShotsComeFromTheMagazine(cfg, f.pistol, frames[1..]);
    }
  }
}

=== FILE: player_stats.dfy ===
/** The player's health, stamina, crouch and sprint state, death and respawn.

    Stamina is counted in thousandths of a stamina point, so a rate in points
    per second times a frame time in milliseconds is an exact amount; the
    "more than one point" threshold that re-enables sprinting is 1000 here. */
module PlayerStats {
  import opened Common

  /** Stamina above which sprinting is allowed again (one stamina point). */
  const SprintResumeLevel: int := 1000

  /** Which branch the last stamina update took; the game only logs it. */
  datatype StaminaState = Idle | Draining | Recovering

  /** Tunables from the player's data asset and the scene. `spawnHealth` is the
      health given at start and at respawn: the asset field the game reads for it
      is not declared, so it is a parameter here. */
  datatype Config = Config(
    spawnHealth: int,
    maxStamina: int,
    recoveryRate: int,      // stamina points regained per second
    sprintDrainRate: int,   // stamina points spent per second of sprinting
    walkSpeed: int,
    sprintSpeed: int,
    crouchSpeed: int,
    spawn: Pose)

  predicate ValidConfig(cfg: Config)
  {
    cfg.spawnHealth >= 0 && cfg.maxStamina >= 0 && cfg.recoveryRate >= 0
  }

  datatype Player = Player(
    health: int,
    stamina: int,
    maxStamina: int,
    isCrouching: bool,
    isDead: bool,
    regenPaused: bool,
    canSprint: bool,
    staminaState: StaminaState,
    controllerEnabled: bool,
    active: bool,
    pose: Pose)

  /** Stamina lies in `[0, maxStamina]`, an active player never has negative
      health, and a dead player cannot move. */
  predicate Valid(p: Player)
  {
    && 0 <= p.stamina <= p.maxStamina
    && (p.active ==> p.health >= 0)
    && (p.isDead ==> !p.controllerEnabled)
  }

  /** The player as the scene loads it: full health and stamina at the spawn pose. */
  function Awake(cfg: Config): (p: Player)
    requires ValidConfig(cfg)
    ensures Valid(p) && !p.isDead && p.controllerEnabled && p.canSprint
    ensures p.health == cfg.spawnHealth && p.stamina == p.maxStamina == cfg.maxStamina
    ensures p.pose == cfg.spawn
  {
    Player(cfg.spawnHealth, cfg.maxStamina, cfg.maxStamina, false, false, false, true,
           Idle, true, true, cfg.spawn)
  }

  // ------------------------------------------------------------ stamina

  /** Adds `amount` (possibly negative) to stamina, clamped to `[0, maxStamina]`;
      ending above one point re-enables sprinting, otherwise the sprint flag is kept. */
  function ModifyStamina(p: Player, amount: int): (r: Player)
    ensures p.maxStamina >= 0 ==> 0 <= r.stamina <= r.maxStamina
    ensures 0 <= p.stamina + amount <= p.maxStamina ==> r.stamina == p.stamina + amount
    ensures p.stamina + amount < 0 ==> r.stamina == 0
    ensures 0 <= p.maxStamina < p.stamina + amount ==> r.stamina == p.maxStamina
    ensures r.canSprint <==> p.canSprint || r.stamina > SprintResumeLevel
    ensures r == p.(stamina := r.stamina, canSprint := r.canSprint)
    ensures Valid(p) ==> Valid(r)
  {
    var s := Clamp(p.stamina + amount, 0, p.maxStamina);
    p.(stamina := s, canSprint := if s > SprintResumeLevel then true else p.canSprint)
  }

  /** Sets whether stamina recovery is suspended (enemies suspend it while chasing). */
  function PauseRecovery(p: Player, pause: bool): (r: Player)
    ensures r.regenPaused == pause
    ensures r == p.(regenPaused := pause)
    ensures Valid(p) ==> Valid(r)
  {
    p.(regenPaused := pause)
  }

  /** True when this frame's sprint request is honoured by the stamina logic. */
  predicate Sprinting(p: Player, sprintHeld: bool)
  {
    sprintHeld && p.stamina > 0 && p.canSprint && !p.isCrouching
  }

  /** One frame of stamina bookkeeping over `dt` milliseconds. Sprinting drains
      stamina (exhaustion pins it at 0 and locks sprinting out); otherwise, when
      recovery is not paused and stamina is below the maximum, it recovers, capped
      at the maximum, re-enabling sprint above one point. */
  function HandleStamina(cfg: Config, p: Player, sprintHeld: bool, dt: nat): (r: Player)
    ensures r.health == p.health && r.isDead == p.isDead && r.isCrouching == p.isCrouching
    ensures r.regenPaused == p.regenPaused && r.maxStamina == p.maxStamina && r.pose == p.pose
    ensures r.controllerEnabled == p.controllerEnabled && r.active == p.active
    // draining: only with the sprint request honoured, never raises stamina,
    // and exhaustion locks sprinting out
    ensures r.staminaState == Draining <==> Sprinting(p, sprintHeld) && cfg.sprintDrainRate > 0
    ensures r.staminaState == Draining ==> r.stamina == Max(0, p.stamina - cfg.sprintDrainRate * dt)
    ensures r.staminaState == Draining ==> r.stamina <= p.stamina && r.stamina >= 0
    ensures r.staminaState == Draining && r.stamina == 0 ==> !r.canSprint
    ensures r.staminaState == Draining && r.stamina > 0 ==> r.canSprint == p.canSprint
    // recovering: only when not paused, not sprinting and below the maximum
    ensures r.staminaState == Recovering <==>
              !(Sprinting(p, sprintHeld) && cfg.sprintDrainRate > 0)
              && !p.regenPaused && !Sprinting(p, sprintHeld) && p.stamina < p.maxStamina
    ensures r.staminaState == Recovering ==> r.stamina == Min(p.maxStamina, p.stamina + cfg.recoveryRate * dt)
    ensures r.staminaState == Recovering && cfg.recoveryRate >= 0 ==>
              p.stamina <= r.stamina <= p.maxStamina
    ensures r.staminaState == Recovering ==> (r.canSprint <==> p.canSprint || r.stamina > SprintResumeLevel)
    ensures r.staminaState == Idle ==> r.stamina == p.stamina && r.canSprint == p.canSprint
    ensures ValidConfig(cfg) && Valid(p) ==> Valid(r)
  {
    var sprinting := Sprinting(p, sprintHeld);
    var totalDrain := if sprinting then cfg.sprintDrainRate else 0;
    if totalDrain > 0 then
      var s := p.stamina - totalDrain * dt;
      if s <= 0 then p.(stamina := 0, canSprint := false, staminaState := Draining)
      else p.(stamina := s, staminaState := Draining)
    else if !p.regenPaused && !sprinting && p.stamina < p.maxStamina then
      var s := p.stamina + cfg.recoveryRate * dt;
      var capped := if s > p.maxStamina then p.maxStamina else s;
      p.(stamina := capped,
         canSprint := if capped > SprintResumeLevel then true else p.canSprint,
         staminaState := Recovering)
    else
      p.(staminaState := Idle)
  }

  // ------------------------------------------------------------ crouch and movement

  /** A crouch key press toggles crouching; no press leaves the player as is. */
  function HandleCrouchInput(p: Player, crouchPressed: bool): (r: Player)
    ensures crouchPressed ==> r.isCrouching == !p.isCrouching
    ensures !crouchPressed ==> r == p
    ensures r == p.(isCrouching := r.isCrouching)
    ensures Valid(p) ==> Valid(r)
  {
    if crouchPressed then p.(isCrouching := !p.isCrouching) else p
  }

  /** Two presses of the crouch key cancel out. */
  lemma CrouchToggleIsInvolution(p: Player)
    ensures HandleCrouchInput(HandleCrouchInput(p, true), true) == p
  {
  }

  /** Ground speed for this frame: crouching wins over sprinting, which wins over
      walking; sprint speed needs stamina left and sprinting not locked out. */
  function MovementSpeed(cfg: Config, p: Player, sprintHeld: bool): (speed: int)
    ensures p.isCrouching ==> speed == cfg.crouchSpeed
    ensures !p.isCrouching && sprintHeld && p.stamina > 0 && p.canSprint ==> speed == cfg.sprintSpeed
    ensures !p.isCrouching && !(sprintHeld && p.stamina > 0 && p.canSprint) ==> speed == cfg.walkSpeed
    ensures speed == cfg.crouchSpeed || speed == cfg.sprintSpeed || speed == cfg.walkSpeed
  {
    if p.isCrouching then cfg.crouchSpeed
    else if sprintHeld && p.stamina > 0 && p.canSprint then cfg.sprintSpeed
    else cfg.walkSpeed
  }

  /** Sprint speed is only ever chosen when the stamina logic of the same frame
      did not lock sprinting out, and never while crouching. */
  lemma SprintSpeedNeedsSprintAllowed(cfg: Config, p: Player, sprintHeld: bool, dt: nat)
    requires cfg.sprintSpeed != cfg.walkSpeed && cfg.sprintSpeed != cfg.crouchSpeed
    ensures var q := HandleStamina(cfg, p, sprintHeld, dt);
            MovementSpeed(cfg, q, sprintHeld) == cfg.sprintSpeed ==>
              sprintHeld && !p.isCrouching && q.canSprint && q.stamina > 0
  {
  }

  // ------------------------------------------------------------ damage, death, respawn

  /** Marks the player dead and disables movement; a second call does nothing. */
  function Die(p: Player): (r: Player)
    ensures p.isDead ==> r == p
    ensures !p.isDead ==> r == p.(isDead := true, controllerEnabled := false)
    ensures Valid(p) ==> Valid(r)
  {
    if p.isDead then p else p.(isDead := true, controllerEnabled := false)
  }

  lemma DieIsIdempotent(p: Player)
    ensures Die(Die(p)) == Die(p)
    ensures Die(p).isDead
  {
  }

  /** Subtracts `amount` from health. If that leaves no health on an active
      player, health is pinned at 0 and the player dies. */
  function TakeDamage(p: Player, amount: int): (r: Player)
    ensures p.health - amount <= 0 && p.active ==> r.health == 0 && r.isDead
    ensures p.health - amount <= 0 && p.active && !p.isDead ==> !r.controllerEnabled
    ensures p.isDead ==> r.isDead && r.controllerEnabled == p.controllerEnabled
    ensures !(p.health - amount <= 0 && p.active) ==> r == p.(health := p.health - amount)
    ensures r.stamina == p.stamina && r.canSprint == p.canSprint && r.pose == p.pose
    ensures !p.isDead && r.isDead ==> r.health == 0
    ensures Valid(p) ==> Valid(r)
  {
    var h := p.health - amount;
    if h <= 0 && p.active then Die(p.(health := 0)) else p.(health := h)
  }

  /** Puts the player back at the spawn pose with full health and stamina and
      clears death. Crouching, the sprint lock-out and the recovery pause are
      carried over as they were. */
  function Respawn(cfg: Config, p: Player): (r: Player)
    ensures !r.isDead && r.controllerEnabled
    ensures r.pose == cfg.spawn && r.health == cfg.spawnHealth && r.stamina == p.maxStamina
    ensures r.isCrouching == p.isCrouching && r.canSprint == p.canSprint && r.regenPaused == p.regenPaused
    ensures r.maxStamina == p.maxStamina && r.active == p.active
    ensures ValidConfig(cfg) && Valid(p) ==> Valid(r)
  {
    p.(controllerEnabled := true, pose := cfg.spawn, health := cfg.spawnHealth,
       stamina := p.maxStamina, isDead := false)
  }

  /** Respawning restores the health, stamina, pose and liveness the scene gave
      the player at load time, whatever happened in between. Crouching, the
      sprint lock-out and the recovery pause are not restored: they carry over. */
  lemma RespawnRestoresAwake(cfg: Config, p: Player)
    requires ValidConfig(cfg)
    requires p.maxStamina == cfg.maxStamina
    ensures var r := Respawn(cfg, p); var a := Awake(cfg);
            r.health == a.health && r.stamina == a.stamina && r.pose == a.pose
            && r.isDead == a.isDead && r.controllerEnabled == a.controllerEnabled
  {
  }

  // ------------------------------------------------------------ frame

  /** This frame's input: crouch and respawn key presses, whether sprint is
      held, and the frame time in milliseconds. */
  datatype Input = Input(crouchPressed: bool, sprintHeld: bool, respawnPressed: bool, dt: nat)

  /** A frame's result: the player and, when the frame was not skipped, the
      ground speed chosen for movement. */
  datatype Frame = Frame(player: Player, speed: Option<int>)

  /** One frame. With no health left or movement disabled nothing happens at
      all; otherwise crouch, stamina and movement run in that order, then the
      respawn key is honoured. */
  function Update(cfg: Config, p: Player, input: Input): (r: Frame)
    ensures p.health <= 0 || !p.controllerEnabled ==> r == Frame(p, None)
    ensures p.health > 0 && p.controllerEnabled ==>
              var q := HandleStamina(cfg, HandleCrouchInput(p, input.crouchPressed), input.sprintHeld, input.dt);
              r.speed == Some(MovementSpeed(cfg, q, input.sprintHeld))
              && (input.respawnPressed ==> r.player == Respawn(cfg, q))
              && (!input.respawnPressed ==> r.player == q)
    ensures !p.isDead ==> !r.player.isDead
    ensures ValidConfig(cfg) && Valid(p) ==> Valid(r.player)
  {
    if p.health <= 0 || !p.controllerEnabled then Frame(p, None)
    else
      var p1 := HandleCrouchInput(p, input.crouchPressed);
      var p2 := HandleStamina(cfg, p1, input.sprintHeld, input.dt);
      var speed := MovementSpeed(cfg, p2, input.sprintHeld);
      var p3 := if p2.health <= 0 && p2.active then Die(p2) else p2;
      var p4 := if input.respawnPressed then Respawn(cfg, p3) else p3;
      Frame(p4, Some(speed))
  }

  // ------------------------------------------------------------ death is final

  /** What can happen to the player: a hit from an enemy, or a frame with its
      input (the respawn key is read only inside a frame). */
  datatype Event = Hit(amount: int) | Tick(input: Input)

  function Step(cfg: Config, p: Player, e: Event): Player
  {
    match e
    case Hit(amount) => TakeDamage(p, amount)
    case Tick(input) => Update(cfg, p, input).player
  }

  function Run(cfg: Config, p: Player, events: seq<Event>): Player
    decreases |events|
  {
    if events == [] then p else Run(cfg, Step(cfg, p, events[0]), events[1..])
  }

  /** A dead player's frame is skipped whole, respawn key included: the key is
      read after the guard that returns on no health or disabled movement. */
  lemma DeadFrameIsSkipped(cfg: Config, p: Player, input: Input)
    requires Valid(p) && p.isDead
    ensures Update(cfg, p, input) == Frame(p, None)
  {
  }

  /** Death is final: along any sequence of hits and frames (respawn key
      presses included) a dead player stays dead and stays unable to move. */
  lemma {:induction false} DeadStaysDead(cfg: Config, p: Player, events: seq<Event>)
    requires ValidConfig(cfg) && Valid(p) && p.isDead
    ensures Run(cfg, p, events).isDead && !Run(cfg, p, events).controllerEnabled
    decreases |events|
  {
    if events != [] {
      var q := Step(cfg, p, events[0]);
      assert q.isDead && Valid(q);
      DeadStaysDead(cfg, q, events[1..]);
    }
  }

  /** Number of deaths the player goes through along `events`. */
  function Deaths(cfg: Config, p: Player, events: seq<Event>): nat
    decreases |events|
  {
    if events == [] then 0
    else
      var q := Step(cfg, p, events[0]);
      (if !p.isDead && q.isDead then 1 else 0) + Deaths(cfg, q, events[1..])
  }

  /** Since nothing revives a dead player, the player dies at most once along
      any sequence of hits and frames, and not at all if already dead. */
  lemma {:induction false} DiesAtMostOnce(cfg: Config, p: Player, events: seq<Event>)
    requires ValidConfig(cfg) && Valid(p)
    ensures Deaths(cfg, p, events) <= (if p.isDead then 0 else 1)
    decreases |events|
  {
    if events != [] {
      var q := Step(cfg, p, events[0]);
      assert Valid(q);
      DiesAtMostOnce(cfg, q, events[1..]);
      if q.isDead && !p.isDead {
        NoDeathsOnceDead(cfg, q, events[1..]);
      }
    }
  }

  lemma {:induction false} NoDeathsOnceDead(cfg: Config, p: Player, events: seq<Event>)
    requires ValidConfig(cfg) && Valid(p) && p.isDead
    ensures Deaths(cfg, p, events) == 0
    decreases |events|
  {
    if events != [] {
      var q := Step(cfg, p, events[0]);
      assert q.isDead && Valid(q);
      NoDeathsOnceDead(cfg, q, events[1..]);
    }
  }
}

=== FILE: pursuit.dfy ===
/** The chase step both enemy revisions share: each frame of a chase drains the
    player's stamina and pauses its recovery, then attacks once if the player
    is close enough, with the attached weapon when it reaches and with the
    enemy's own fallback attack otherwise. */
module Pursuit {
  import opened Common
  import PlayerStats
  import EnemyWeapon

  /** An enemy's chase values: stamina points drained from the player per
      second of chase, and the fallback attack's range, cooldown (ms) and damage. */
  datatype Tactics = Tactics(drainRate: int, attackRange: int, attackCooldown: int, attackDamage: int)

  /** What an enemy's attacks carry from frame to frame: when the fallback
      attack last struck, and the attached weapon, if any. */
  datatype Arms = Arms(lastAttackTime: int, weapon: Option<EnemyWeapon.Weapon>)

  /** Result of a step that can hurt the player. */
  datatype Engagement = Engagement(arms: Arms, player: PlayerStats.Player)

  /** True when an attached weapon reaches a player `distance` away. */
  predicate InWeaponRange(a: Arms, distance: int)
  {
    a.weapon.Some? && distance <= a.weapon.value.attackRange
  }

  /** The fallback attack: no damage before `lastAttackTime + attackCooldown`;
      after it, the player takes `attackDamage` once and the time is recorded. */
  function TryAttackPlayer(t: Tactics, a: Arms, player: PlayerStats.Player, now: int): (r: Engagement)
    ensures now < a.lastAttackTime + t.attackCooldown ==> r == Engagement(a, player)
    ensures now >= a.lastAttackTime + t.attackCooldown ==>
              r.arms == a.(lastAttackTime := now)
              && r.player == PlayerStats.TakeDamage(player, t.attackDamage)
  {
    if now < a.lastAttackTime + t.attackCooldown then Engagement(a, player)
    else Engagement(a.(lastAttackTime := now), PlayerStats.TakeDamage(player, t.attackDamage))
  }

  /** The fallback cooldown is measured from time 0 before the first attack, so
      an enemy that has never attacked cannot use it before one cooldown has
      passed since the scene started. */
  lemma FirstFallbackWaitsACooldown(t: Tactics, weapon: Option<EnemyWeapon.Weapon>,
                                    player: PlayerStats.Player, now: int)
    requires now < t.attackCooldown
    ensures TryAttackPlayer(t, Arms(0, weapon), player, now) == Engagement(Arms(0, weapon), player)
  {
  }

  /** The times, among `attempts`, at which the fallback attack actually struck. */
  function FallbackStrikes(t: Tactics, a: Arms, player: PlayerStats.Player, attempts: seq<int>): (hits: seq<int>)
    ensures |hits| <= |attempts|
    ensures |hits| > 0 ==> hits[0] >= a.lastAttackTime + t.attackCooldown
    ensures forall i :: 0 <= i < |hits| ==> hits[i] in attempts
    decreases |attempts|
  {
    if attempts == [] then []
    else
      var r := TryAttackPlayer(t, a, player, attempts[0]);
      var rest := FallbackStrikes(t, r.arms, r.player, attempts[1..]);
      assert forall i :: 0 <= i < |rest| ==> rest[i] in attempts by {
        forall i | 0 <= i < |rest| ensures rest[i] in attempts {
          assert rest[i] in attempts[1..];
        }
      }
      if attempts[0] >= a.lastAttackTime + t.attackCooldown then [attempts[0]] + rest else rest
  }

  /** Any two consecutive fallback strikes are at least a cooldown apart,
      whatever the order and spacing of the attempts. */
  lemma {:induction false} FallbackStrikesAreSpaced(t: Tactics, a: Arms, player: PlayerStats.Player,
                                                    attempts: seq<int>)
    ensures EnemyWeapon.Spaced(FallbackStrikes(t, a, player, attempts), t.attackCooldown)
    decreases |attempts|
  {
    if attempts != [] {
      var r := TryAttackPlayer(t, a, player, attempts[0]);
      var rest := FallbackStrikes(t, r.arms, r.player, attempts[1..]);
      FallbackStrikesAreSpaced(t, r.arms, r.player, attempts[1..]);
      if attempts[0] >= a.lastAttackTime + t.attackCooldown {
        var hits := [attempts[0]] + rest;
        assert FallbackStrikes(t, a, player, attempts) == hits;
        assert r.arms.lastAttackTime == attempts[0];
        forall i | 0 <= i < |hits| - 1 ensures hits[i] + t.attackCooldown <= hits[i + 1] {
          if i > 0 {
            assert hits[i] == rest[i - 1] && hits[i + 1] == rest[i];
            assert rest[i - 1] + t.attackCooldown <= rest[i - 1 + 1];
          } else {
            assert hits[0] == attempts[0] && hits[1] == rest[0];
          }
        }
      } else {
        assert FallbackStrikes(t, a, player, attempts) == rest;
      }
    }
  }

  /** The chase's drain: stamina drops by `drainRate` per second for `dt` ms,
      clamped at 0, and recovery is paused; health is untouched. */
  function Drain(t: Tactics, player: PlayerStats.Player, dt: nat): (d: PlayerStats.Player)
    ensures d.health == player.health && d.active == player.active && d.regenPaused
    // only stamina, the sprint lock-out and the pause change; sprint comes
    // back once stamina ends above one point
    ensures d == player.(stamina := d.stamina, canSprint := d.canSprint, regenPaused := true)
    ensures d.canSprint <==> player.canSprint || d.stamina > PlayerStats.SprintResumeLevel
    ensures PlayerStats.Valid(player) && t.drainRate >= 0 ==>
              d.stamina == Max(0, player.stamina - t.drainRate * dt)
    ensures PlayerStats.Valid(player) ==> PlayerStats.Valid(d)
  {
    PlayerStats.PauseRecovery(PlayerStats.ModifyStamina(player, -(t.drainRate * dt)), true)
  }

  /** At most one attack on a player `distance` away: the weapon's when it
      reaches (gated by its own cooldown), else the fallback's within its range
      (gated by the fallback cooldown), else none. Only health can change. */
  function Strike(t: Tactics, a: Arms, player: PlayerStats.Player, now: int, distance: int): (r: Engagement)
    ensures r.player.stamina == player.stamina && r.player.regenPaused == player.regenPaused
    // the weapon reaches: the fallback is not used
    ensures InWeaponRange(a, distance) ==>
              var w := a.weapon.value;
              && r.arms.lastAttackTime == a.lastAttackTime
              && (now < w.nextAttackTime ==> r == Engagement(a, player))
              && (now >= w.nextAttackTime ==>
                    r.arms.weapon == Some(w.(nextAttackTime := now + w.attackCooldown))
                    && r.player == PlayerStats.TakeDamage(player, w.damage))
    // the weapon does not reach: only the fallback may strike
    ensures !InWeaponRange(a, distance) ==> r.arms.weapon == a.weapon
    ensures !InWeaponRange(a, distance) && distance <= t.attackRange ==>
              && (now < a.lastAttackTime + t.attackCooldown ==> r == Engagement(a, player))
              && (now >= a.lastAttackTime + t.attackCooldown ==>
                    r.arms.lastAttackTime == now && r.player == PlayerStats.TakeDamage(player, t.attackDamage))
    ensures !InWeaponRange(a, distance) && distance > t.attackRange ==> r == Engagement(a, player)
    ensures PlayerStats.Valid(player) ==> PlayerStats.Valid(r.player)
  {
    match a.weapon
    case Some(w) =>
      if distance <= w.attackRange then
        var s := EnemyWeapon.TryAttack(w, player, now);
        Engagement(a.(weapon := Some(s.weapon)), s.player)
      else if distance <= t.attackRange then TryAttackPlayer(t, a, player, now)
      else Engagement(a, player)
    case None =>
      if distance <= t.attackRange then TryAttackPlayer(t, a, player, now)
      else Engagement(a, player)
  }

  /** One chase step against a player `distance` away, `dt` ms after the last.
      Against a player with no health nothing happens. Otherwise the stamina
      drain applies first, clamped at 0, and recovery is paused; then at most
      one attack: the weapon's when it reaches (gated by its own cooldown), else
      the fallback's within its range (gated by the fallback cooldown), else none. */
  function ChasePlayer(t: Tactics, a: Arms, player: PlayerStats.Player, now: int, dt: nat, distance: int): (r: Engagement)
    ensures player.health <= 0 ==> r == Engagement(a, player)
    ensures player.health > 0 ==> r.player.regenPaused
    ensures player.health > 0 && PlayerStats.Valid(player) && t.drainRate >= 0 ==>
              r.player.stamina == Max(0, player.stamina - t.drainRate * dt)
    // the weapon reaches: the fallback is not used
    ensures player.health > 0 && InWeaponRange(a, distance) ==>
              var w := a.weapon.value;
              && r.arms.lastAttackTime == a.lastAttackTime
              && (now < w.nextAttackTime ==> r == Engagement(a, Drain(t, player, dt)))
              && (now >= w.nextAttackTime ==>
                    r.arms.weapon == Some(w.(nextAttackTime := now + w.attackCooldown))
                    && r.player == PlayerStats.TakeDamage(Drain(t, player, dt), w.damage))
    // the weapon does not reach: only the fallback may strike
    ensures player.health > 0 && !InWeaponRange(a, distance) ==> r.arms.weapon == a.weapon
    ensures player.health > 0 && !InWeaponRange(a, distance) && distance <= t.attackRange ==>
              && (now < a.lastAttackTime + t.attackCooldown ==> r == Engagement(a, Drain(t, player, dt)))
              && (now >= a.lastAttackTime + t.attackCooldown ==>
                    r.arms.lastAttackTime == now
                    && r.player == PlayerStats.TakeDamage(Drain(t, player, dt), t.attackDamage))
    ensures player.health > 0 && !InWeaponRange(a, distance) && distance > t.attackRange ==>
              r == Engagement(a, Drain(t, player, dt))
    ensures PlayerStats.Valid(player) ==> PlayerStats.Valid(r.player)
  {
    if player.health <= 0 then Engagement(a, player)
    else Strike(t, a, Drain(t, player, dt), now, distance)
  }

  /** A strike that leaves the player no health kills it: an enemy can end the
      game. Shown for the weapon; the fallback goes through the same damage call. */
  lemma LethalWeaponStrikeKills(t: Tactics, a: Arms, player: PlayerStats.Player, now: int, dt: nat, distance: int)
    requires player.health > 0 && player.active && !player.isDead
    requires InWeaponRange(a, distance) && now >= a.weapon.value.nextAttackTime
    requires player.health <= a.weapon.value.damage
    ensures ChasePlayer(t, a, player, now, dt, distance).player.isDead
    ensures !ChasePlayer(t, a, player, now, dt, distance).player.controllerEnabled
    ensures ChasePlayer(t, a, player, now, dt, distance).player.health == 0
  {
  }

  lemma LethalFallbackStrikeKills(t: Tactics, a: Arms, player: PlayerStats.Player, now: int, dt: nat, distance: int)
    requires player.health > 0 && player.active && !player.isDead
    requires !InWeaponRange(a, distance) && distance <= t.attackRange
    requires now >= a.lastAttackTime + t.attackCooldown && player.health <= t.attackDamage
    ensures ChasePlayer(t, a, player, now, dt, distance).player.isDead
    ensures !ChasePlayer(t, a, player, now, dt, distance).player.controllerEnabled
    ensures ChasePlayer(t, a, player, now, dt, distance).player.health == 0
  {
  }
}

=== FILE: soldier_enemy_ai.dfy ===
/** The soldier's state machine, latest revision: Normal, Patrol, Alert, Chase,
    Damage and Dead, a cyclic patrol route, the global alert raised on sight or
    after being shot, and an alert countdown restarted by every survived hit.

    Engine work (movement, rotation, ray casts, navigation) is reduced to what
    the state machine reads from it: a `Percept` of the player and the flat
    distance to the current waypoint. */
module SoldierEnemyAI {
  import opened Common
  import Vision
  import AlertManager
  import PlayerStats
  import EnemyWeapon
  import Pursuit

  datatype State = Normal | Patrol | Alert | Chase | Damage | Dead

  /** Per-enemy tunables. `patrolCount` is the number of patrol points. The
      fallback attack's three values are read from the soldier asset but not
      declared on it, so they are parameters here. */
  datatype Config = Config(
    maxHealth: int,
    patrolCount: nat,
    patrolTolerance: int,
    alertTimeLimit: int,   // ms between a survived hit and the enemy's own alert
    viewDistance: int,
    viewAngle: int,
    tactics: Pursuit.Tactics)

  /** `alertTimer` is the pending alert countdown; `events` logs the notices
      this enemy raised. */
  datatype Enemy = Enemy(
    state: State,
    health: int,
    patrolIndex: nat,
    wasShotByPlayer: bool,
    damageStateTimer: int,
    alertTimer: Countdown,
    arms: Pursuit.Arms,
    controllerEnabled: bool,
    active: bool,
    pose: Pose,
    events: seq<Notice>)

  /** What holds of every enemy reachable from `Awake`:
      health is never negative; a dead enemy has no health, no pending countdown
      and is switched off, a live one is switched on; Alert and Damage never
      outlast the operation that entered them (the stagger timer is never
      positive); a chasing enemy has been shot or has seen the player; a
      patrolling enemy has a route; and the patrol cursor indexes the route. */
  predicate Valid(cfg: Config, e: Enemy)
  {
    && e.health >= 0
    && e.state != Alert
    && e.damageStateTimer <= 0
    && (e.state == Dead ==> e.health == 0 && e.alertTimer == Stopped)
    && (e.controllerEnabled <==> e.state != Dead)
    && (e.active <==> e.state != Dead)
    && (e.state == Chase ==> e.wasShotByPlayer)
    && (e.state == Patrol ==> cfg.patrolCount > 0)
    && (if cfg.patrolCount > 0 then e.patrolIndex < cfg.patrolCount else e.patrolIndex == 0)
  }

  predicate ValidConfig(cfg: Config)
  {
    cfg.maxHealth >= 0
  }

  // ------------------------------------------------------------ life cycle

  /** The enemy as the scene loads it: full health, Normal, nothing pending. */
  function Awake(cfg: Config, pose: Pose, weapon: Option<EnemyWeapon.Weapon>): (e: Enemy)
    requires ValidConfig(cfg)
    ensures Valid(cfg, e)
    ensures e.state == Normal && e.health == cfg.maxHealth && !e.wasShotByPlayer
    ensures e.alertTimer == Stopped && e.events == [] && e.pose == pose
  {
    Enemy(Normal, cfg.maxHealth, 0, false, 0, Stopped, Pursuit.Arms(0, weapon), true, true, pose, [])
  }

  /** An enemy with a route starts patrolling from the first point; one without
      stays Normal. */
  function Start(cfg: Config, e: Enemy): (r: Enemy)
    ensures cfg.patrolCount > 0 ==> r.state == Patrol && r.patrolIndex == 0
    ensures cfg.patrolCount == 0 ==> r == e
    ensures r == e.(state := r.state, patrolIndex := r.patrolIndex)
    ensures Valid(cfg, e) && e.state == Normal ==> Valid(cfg, r)
  {
    if cfg.patrolCount > 0 then e.(state := Patrol, patrolIndex := 0) else e
  }

  /** Changes the state and nothing else; setting the current state again
      changes nothing. */
  function SetState(e: Enemy, s: State): (r: Enemy)
    ensures r.state == s
    ensures e.state == s ==> r == e
    ensures r == e.(state := s)
  {
    if e.state != s then e.(state := s) else e
  }

  /** Starts a chase and remembers the player as hostile; ignored when dead. */
  function ForceChase(e: Enemy): (r: Enemy)
    ensures e.state == Dead ==> r == e
    ensures e.state != Dead ==> r.state == Chase && r.wasShotByPlayer
    ensures e.state != Dead ==> r == e.(state := Chase, wasShotByPlayer := true)
  {
    if e.state == Dead then e
    else SetState(e, Chase).(wasShotByPlayer := true)
  }

  /** The enemy's reaction to the global alert: it passes through Alert and
      ends up chasing. Ignored when dead. */
  function ForceAlert(e: Enemy): (r: Enemy)
    ensures e.state == Dead ==> r == e
    ensures e.state != Dead ==> r == ForceChase(e)
  {
    if e.state == Dead then e
    else ForceChase(SetState(e, Alert))
  }

  // ------------------------------------------------------------ damage

  /** Result of an operation that can also affect the player. */
  datatype Outcome = Outcome(enemy: Enemy, player: PlayerStats.Player)

  /** Death: the state becomes Dead, the enemy is switched off, the player's
      stamina recovery is resumed, and the death notices are raised once. */
  function Die(e: Enemy, player: PlayerStats.Player): (r: Outcome)
    ensures r.enemy.state == Dead && !r.enemy.active && !r.enemy.controllerEnabled
    ensures r.enemy.events == e.events + [EnemyDied, PlayerDied]
    ensures r.enemy.health == e.health && r.enemy.alertTimer == e.alertTimer
    // nothing else changes: shot memory, cursor, arms, pose and timers carry over
    ensures r.enemy == e.(state := Dead, active := false, controllerEnabled := false,
                          events := e.events + [EnemyDied, PlayerDied])
    ensures r.player == PlayerStats.PauseRecovery(player, false)
  {
    Outcome(SetState(e, Dead).(active := false, controllerEnabled := false,
                               events := e.events + [EnemyDied, PlayerDied]),
            PlayerStats.PauseRecovery(player, false))
  }

  /** A hit of `amount` at time `now`. Dead enemies ignore it. Health drops to
      `max(0, health - amount)`; at zero the pending alert countdown is
      cancelled and the enemy dies; otherwise it enters Damage and the alert
      countdown is restarted, so exactly one countdown is pending. */
  function TakeDamage(cfg: Config, e: Enemy, player: PlayerStats.Player, amount: int, now: int): (r: Outcome)
    ensures e.state == Dead ==> r == Outcome(e, player)
    ensures e.state != Dead ==> r.enemy.health == Max(0, e.health - amount)
    ensures e.state != Dead && e.health - amount <= 0 ==>
              && r.enemy.state == Dead && r.enemy.health == 0
              && r.enemy.alertTimer == Stopped
              && r.enemy.events == e.events + [EnemyDied, PlayerDied]
              && r.player == PlayerStats.PauseRecovery(player, false)
    ensures e.state != Dead && e.health - amount > 0 ==>
              && r.enemy.state == Damage
              && r.enemy.alertTimer == Running(now + cfg.alertTimeLimit)
              && r.enemy.events == e.events
              && r.enemy.wasShotByPlayer == e.wasShotByPlayer
              && r.enemy.damageStateTimer == e.damageStateTimer
              && r.player == player
    // a lethal hit is a death at zero health with the countdown cancelled
    ensures e.state != Dead && e.health - amount <= 0 ==> r == Die(e.(health := 0, alertTimer := Stopped), player)
    // a survived hit changes health, state and countdown only
    ensures e.state != Dead && e.health - amount > 0 ==>
              r.enemy == e.(health := r.enemy.health, state := Damage,
                            alertTimer := Running(now + cfg.alertTimeLimit))
    ensures Valid(cfg, e) ==> Valid(cfg, r.enemy)
  {
    if e.state == Dead then Outcome(e, player)
    else
      var h := Max(0, e.health - amount);
      if h <= 0 then Die(e.(health := h, alertTimer := Stopped), player)
      else Outcome(SetState(e.(health := h), Damage).(alertTimer := Running(now + cfg.alertTimeLimit)), player)
  }

  /** The stagger: in Damage, the timer runs down by `dt`; once it is spent the
      enemy chases if it sees the player and returns to Normal otherwise. */
  function HandleDamageState(e: Enemy, dt: nat, sees: bool): (r: Enemy)
    ensures e.state != Damage ==> r == e
    ensures e.state == Damage ==> r.damageStateTimer == e.damageStateTimer - dt
    ensures e.state == Damage && r.damageStateTimer > 0 ==> r.state == Damage
    ensures e.state == Damage && r.damageStateTimer <= 0 ==> r.state == (if sees then Chase else Normal)
    ensures r == e.(state := r.state, damageStateTimer := r.damageStateTimer)
  {
    if e.state != Damage then e
    else
      var t := e.damageStateTimer - dt;
      if t <= 0 then SetState(e.(damageStateTimer := t), if sees then Chase else Normal)
      else e.(damageStateTimer := t)
  }

  // ------------------------------------------------------------ patrol

  /** One patrol step toward the current waypoint, `flatDistance` away on the
      ground plane. Without a route, or with movement disabled, the enemy falls
      back to Normal; on arrival (strictly within tolerance) the cursor moves to
      the next point, wrapping around. */
  function DoPatrol(cfg: Config, e: Enemy, flatDistance: int): (r: Enemy)
    ensures cfg.patrolCount == 0 || !e.controllerEnabled ==> r == SetState(e, Normal)
    ensures cfg.patrolCount > 0 && e.controllerEnabled && flatDistance < cfg.patrolTolerance ==>
              r == e.(patrolIndex := (e.patrolIndex + 1) % cfg.patrolCount)
    ensures cfg.patrolCount > 0 && e.controllerEnabled && flatDistance >= cfg.patrolTolerance ==> r == e
    ensures cfg.patrolCount > 0 ==> r.patrolIndex < cfg.patrolCount || r.patrolIndex == e.patrolIndex
  {
    if cfg.patrolCount == 0 || !e.controllerEnabled then SetState(e, Normal)
    else if flatDistance < cfg.patrolTolerance then GoToNextPatrolPoint(cfg, e)
    else e
  }

  /** Advances the patrol cursor cyclically. */
  function GoToNextPatrolPoint(cfg: Config, e: Enemy): (r: Enemy)
    requires cfg.patrolCount > 0
    ensures r.patrolIndex < cfg.patrolCount
    ensures e.patrolIndex < cfg.patrolCount - 1 ==> r.patrolIndex == e.patrolIndex + 1
    ensures e.patrolIndex == cfg.patrolCount - 1 ==> r.patrolIndex == 0
    ensures r == e.(patrolIndex := r.patrolIndex)
  {
    e.(patrolIndex := (e.patrolIndex + 1) % cfg.patrolCount)
  }

  // ------------------------------------------------------------ frame

  /** Result of an operation that can also raise the global alert. */
  datatype Tick = Tick(enemy: Enemy, bus: AlertManager.Alert, player: PlayerStats.Player)

  /** True when this enemy sees the player in `sight`. */
  function Sees(cfg: Config, sight: Vision.Percept): bool
  {
    Vision.InConeOfVision(cfg.viewDistance, cfg.viewAngle, sight)
  }

  /** One frame. A dead enemy does nothing. Otherwise the stagger is advanced;
      seeing the player, or having been shot, raises the global alert (when it
      is down) and starts a chase; then the current state acts: a patrol is
      interrupted by an active alert, Alert turns into Chase, and a chase with
      the player out of sight and no alert falls back to the route (or to
      Normal without one). Raising the alert also runs this enemy's own alert
      reaction, as it is subscribed to the bus. */
  function Update(cfg: Config, e: Enemy, bus: AlertManager.Alert, player: PlayerStats.Player,
                  now: int, dt: nat, sight: Vision.Percept, flatDistance: int, reach: int): (r: Tick)
    ensures e.state == Dead ==> r == Tick(e, bus, player)
    // sight or a remembered shot always ends the frame chasing, under an active alert
    ensures e.state != Dead && (Sees(cfg, sight) || e.wasShotByPlayer) ==>
              r.enemy.state == Chase && r.enemy.wasShotByPlayer && r.bus.isGlobalAlert
    ensures e.state != Dead && (Sees(cfg, sight) || e.wasShotByPlayer) ==>
              r.bus == AlertManager.Trigger(bus, now)
    ensures !(Sees(cfg, sight) || e.wasShotByPlayer) ==> r.bus == bus
    // the chase step runs, with the enemy's arms and at the post-move distance
    // `reach`, whenever the frame ends chasing with the player seen or an alert up
    ensures e.state != Dead && (Sees(cfg, sight) || e.wasShotByPlayer) ==>
              var o := Pursuit.ChasePlayer(cfg.tactics, e.arms, player, now, dt, reach);
              r.player == o.player && r.enemy.arms == o.arms
    ensures e.state == Chase && !Sees(cfg, sight) && !e.wasShotByPlayer && bus.isGlobalAlert ==>
              var o := Pursuit.ChasePlayer(cfg.tactics, e.arms, player, now, dt, reach);
              r.player == o.player && r.enemy.arms == o.arms
    // otherwise the player and the enemy's arms are untouched
    ensures !(Sees(cfg, sight) || e.wasShotByPlayer) && !(e.state == Chase && bus.isGlobalAlert) ==>
              r.player == player && r.enemy.arms == e.arms
    // an unprovoked chase with no alert falls back to the route, or to Normal
    ensures e.state == Chase && !Sees(cfg, sight) && !e.wasShotByPlayer && !bus.isGlobalAlert ==>
              r.enemy.state == (if cfg.patrolCount > 0 then Patrol else Normal)
    // an alert interrupts a patrol
    ensures e.state == Patrol && bus.isGlobalAlert ==> r.enemy.state == Chase
    // an unprovoked Normal soldier does nothing, whatever the bus says
    ensures e.state == Normal && !Sees(cfg, sight) && !e.wasShotByPlayer ==> r == Tick(e, bus, player)
    // the shot memory is set only by a provocation or a forced chase, and the
    // cursor only moves on a patrol
    ensures !(Sees(cfg, sight) || e.wasShotByPlayer) && !(e.state == Patrol && bus.isGlobalAlert) && e.state != Alert ==>
              r.enemy.wasShotByPlayer == e.wasShotByPlayer
    ensures e.state != Patrol ==> r.enemy.patrolIndex == e.patrolIndex
    // a frame changes only the state, cursor, shot memory, stagger timer and arms
    ensures r.enemy == e.(state := r.enemy.state, patrolIndex := r.enemy.patrolIndex,
                          wasShotByPlayer := r.enemy.wasShotByPlayer,
                          damageStateTimer := r.enemy.damageStateTimer, arms := r.enemy.arms)
    ensures r.enemy.health == e.health && r.enemy.events == e.events && r.enemy.alertTimer == e.alertTimer
    ensures r.enemy.pose == e.pose
    ensures e.state != Dead ==> r.enemy.state != Dead && r.enemy.state != Alert
    ensures PlayerStats.Valid(player) ==> PlayerStats.Valid(r.player)
    ensures AlertManager.Valid(bus) ==> AlertManager.Valid(r.bus)
  {
    if e.state == Dead then Tick(e, bus, player)
    else
      var sees := Sees(cfg, sight);
      var e1 := HandleDamageState(e, dt, sees);
      var provoked := sees || e1.wasShotByPlayer;
      var raised := provoked && !bus.isGlobalAlert;
      var bus1 := if raised then AlertManager.Trigger(bus, now) else bus;
      var e2 := if provoked then ForceChase(if raised then ForceAlert(e1) else e1) else e1;
      match e2.state
      case Patrol =>
        if bus1.isGlobalAlert then Tick(ForceChase(e2), bus1, player)
        else Tick(DoPatrol(cfg, e2, flatDistance), bus1, player)
      case Alert =>
        Tick(ForceChase(e2), bus1, player)
      case Chase =>
        if !sees && !bus1.isGlobalAlert then
          Tick(SetState(e2, if cfg.patrolCount > 0 then Patrol else Normal), bus1, player)
        else
          var o := Pursuit.ChasePlayer(cfg.tactics, e2.arms, player, now, dt, reach);
          Tick(e2.(arms := o.arms), bus1, o.player)
      case _ =>
        Tick(e2, bus1, player)
  }

  /** A soldier that sees the player, within reach of its weapon once the
      weapon is ready, kills a player with no more health than the weapon's damage. */
  lemma SightedPlayerCanBeKilled(cfg: Config, e: Enemy, bus: AlertManager.Alert, player: PlayerStats.Player,
                                 now: int, dt: nat, sight: Vision.Percept, flatDistance: int, reach: int)
    requires e.state != Dead && Sees(cfg, sight)
    requires player.health > 0 && player.active && !player.isDead
    requires Pursuit.InWeaponRange(e.arms, reach) && now >= e.arms.weapon.value.nextAttackTime
    requires player.health <= e.arms.weapon.value.damage
    ensures Update(cfg, e, bus, player, now, dt, sight, flatDistance, reach).player.isDead
  {
    Pursuit.LethalWeaponStrikeKills(cfg.tactics, e.arms, player, now, dt, reach);
  }

  // ------------------------------------------------------------ alert countdown

  /** Result of an operation on the enemy and the bus only. */
  datatype Raise = Raise(enemy: Enemy, bus: AlertManager.Alert)

  /** Runs the pending alert countdown once it is due: if the enemy is alive
      and the alert is down, the alert is raised (and the enemy, being
      subscribed, reacts to it); in every case the countdown is cleared. */
  function AlertCountdown(e: Enemy, bus: AlertManager.Alert, now: int): (r: Raise)
    ensures !(e.alertTimer.Running? && now >= e.alertTimer.deadline) ==> r == Raise(e, bus)
    ensures e.alertTimer.Running? && now >= e.alertTimer.deadline ==> r.enemy.alertTimer == Stopped
    ensures e.alertTimer.Running? && now >= e.alertTimer.deadline && e.state != Dead && !bus.isGlobalAlert ==>
              r.bus == AlertManager.Trigger(bus, now) && r.enemy.state == Chase && r.enemy.wasShotByPlayer
    ensures e.state == Dead || bus.isGlobalAlert ==> r.bus == bus && r.enemy.state == e.state
    // when due, the countdown is cleared; a raise also makes this enemy chase,
    // and nothing else about it changes
    ensures e.alertTimer.Running? && now >= e.alertTimer.deadline && e.state != Dead && !bus.isGlobalAlert ==>
              r.enemy == e.(state := Chase, wasShotByPlayer := true, alertTimer := Stopped)
    ensures e.alertTimer.Running? && now >= e.alertTimer.deadline && (e.state == Dead || bus.isGlobalAlert) ==>
              r == Raise(e.(alertTimer := Stopped), bus)
    ensures r.enemy.health == e.health && r.enemy.events == e.events
    ensures AlertManager.Valid(bus) ==> AlertManager.Valid(r.bus)
  {
    match e.alertTimer
    case Stopped => Raise(e, bus)
    case Running(d) =>
      if now < d then Raise(e, bus)
      else if e.state != Dead && !bus.isGlobalAlert then
        Raise(ForceAlert(e).(alertTimer := Stopped), AlertManager.Trigger(bus, now))
      else
        Raise(e.(alertTimer := Stopped), bus)
  }

  // ------------------------------------------------------------ respawn

  /** Brings the enemy back: switched on at the given pose with `healthToSet`
      health, in Normal, stagger timer cleared, and a respawn notice raised.
      The shot memory, the alert countdown and the attack cooldown carry over. */
  function ResetEnemy(e: Enemy, healthToSet: int, pose: Pose): (r: Enemy)
    ensures r.state == Normal && r.health == healthToSet && r.damageStateTimer == 0
    ensures r.active && r.controllerEnabled && r.pose == pose
    ensures r.events == e.events + [EnemyRespawned]
    ensures r.wasShotByPlayer == e.wasShotByPlayer && r.alertTimer == e.alertTimer
    ensures r.patrolIndex == e.patrolIndex && r.arms == e.arms
  {
    SetState(e.(active := true, damageStateTimer := 0, controllerEnabled := true, pose := pose,
                health := healthToSet), Normal)
      .(events := e.events + [EnemyRespawned])
  }

  // ------------------------------------------------------------ invariants

  lemma ForceAlertPreservesValid(cfg: Config, e: Enemy)
    requires Valid(cfg, e)
    ensures Valid(cfg, ForceAlert(e))
    ensures e.state != Dead ==> ForceAlert(e).state == Chase
  {
  }

  lemma ResetEnemyPreservesValid(cfg: Config, e: Enemy, healthToSet: int, pose: Pose)
    requires Valid(cfg, e)
    requires healthToSet >= 0
    ensures Valid(cfg, ResetEnemy(e, healthToSet, pose))
  {
  }

  lemma AlertCountdownPreservesValid(e: Enemy, cfg: Config, bus: AlertManager.Alert, now: int)
    requires Valid(cfg, e)
    ensures Valid(cfg, AlertCountdown(e, bus, now).enemy)
  {
  }

  /** Every frame keeps the enemy valid; in particular the patrol cursor stays
      inside the route, so the waypoint lookup is always in bounds. */
  lemma UpdatePreservesValid(cfg: Config, e: Enemy, bus: AlertManager.Alert, player: PlayerStats.Player,
                             now: int, dt: nat, sight: Vision.Percept, flatDistance: int, reach: int)
    requires Valid(cfg, e)
    ensures Valid(cfg, Update(cfg, e, bus, player, now, dt, sight, flatDistance, reach).enemy)
  {
    var r := Update(cfg, e, bus, player, now, dt, sight, flatDistance, reach);
    if e.state != Dead {
      var e1 := HandleDamageState(e, dt, Sees(cfg, sight));
      assert e1.damageStateTimer <= 0;
      assert e1.state != Damage;
    }
  }

  /** The stagger of this revision lasts a single frame: a survived hit never
      resets the stagger timer, which is never positive, so the next frame
      always leaves Damage, however long the stagger was meant to be. */
  lemma DamageLastsOneFrame(cfg: Config, e: Enemy, bus: AlertManager.Alert, player: PlayerStats.Player,
                            now: int, dt: nat, sight: Vision.Percept, flatDistance: int, reach: int)
    requires Valid(cfg, e) && e.state == Damage
    ensures Update(cfg, e, bus, player, now, dt, sight, flatDistance, reach).enemy.state != Damage
  {
  }

  /** Once chasing, a valid enemy keeps chasing on every frame: it remembers
      having been shot, so each frame re-raises the alert if it lapsed and the
      fall-back to the route is never taken. */
  lemma ChaseIsSticky(cfg: Config, e: Enemy, bus: AlertManager.Alert, player: PlayerStats.Player,
                      now: int, dt: nat, sight: Vision.Percept, flatDistance: int, reach: int)
    requires Valid(cfg, e) && e.state == Chase
    ensures Update(cfg, e, bus, player, now, dt, sight, flatDistance, reach).enemy.state == Chase
    ensures Update(cfg, e, bus, player, now, dt, sight, flatDistance, reach).bus.isGlobalAlert
  {
  }

  /** A patrolling enemy that is not provoked and hears no alert stays on its
      route and moves its cursor on exactly when it has arrived. */
  lemma PatrolAdvancesOnArrival(cfg: Config, e: Enemy, bus: AlertManager.Alert, player: PlayerStats.Player,
                                now: int, dt: nat, sight: Vision.Percept, flatDistance: int, reach: int)
    requires Valid(cfg, e) && e.state == Patrol
    requires !Sees(cfg, sight) && !e.wasShotByPlayer && !bus.isGlobalAlert
    ensures var r := Update(cfg, e, bus, player, now, dt, sight, flatDistance, reach).enemy;
            && r.state == Patrol
            && r.patrolIndex == (if flatDistance < cfg.patrolTolerance
                                 then (e.patrolIndex + 1) % cfg.patrolCount else e.patrolIndex)
            && r.patrolIndex < cfg.patrolCount
  {
  }

  // ------------------------------------------------------------ runs

  /** What can happen to one enemy: a frame, a pistol hit, the enemy's reaction
      to a global alert raised elsewhere, its own countdown coming due, and a respawn. */
  datatype Action =
    | Frame(now: int, dt: nat, sight: Vision.Percept, flatDistance: int, reach: int)
    | Shot(amount: int, at: int)
    | AlertReaction
    | CountdownDue(t: int)
    | Respawn(healthToSet: nat, pose: Pose)

  function Step(cfg: Config, s: Tick, a: Action): Tick
  {
    match a
    case Frame(now, dt, sight, flatDistance, reach) => Update(cfg, s.enemy, s.bus, s.player, now, dt, sight, flatDistance, reach)
    case Shot(amount, at) =>
      var o := TakeDamage(cfg, s.enemy, s.player, amount, at);
      Tick(o.enemy, s.bus, o.player)
    case AlertReaction => Tick(ForceAlert(s.enemy), s.bus, s.player)
    case CountdownDue(t) =>
      var q := AlertCountdown(s.enemy, s.bus, t);
      Tick(q.enemy, q.bus, s.player)
    case Respawn(hp, pose) => Tick(ResetEnemy(s.enemy, hp, pose), s.bus, s.player)
  }

  function Run(cfg: Config, s: Tick, actions: seq<Action>): Tick
    decreases |actions|
  {
    if actions == [] then s else Run(cfg, Step(cfg, s, actions[0]), actions[1..])
  }

  predicate NoRespawn(actions: seq<Action>)
  {
    forall i :: 0 <= i < |actions| ==> !actions[i].Respawn?
  }

  /** Dead is absorbing: without a respawn, nothing that happens to a dead
      enemy changes it, raises an alert or touches the player. */
  lemma {:induction false} DeadIsAbsorbing(cfg: Config, s: Tick, actions: seq<Action>)
    requires Valid(cfg, s.enemy) && s.enemy.state == Dead
    requires NoRespawn(actions)
    ensures Run(cfg, s, actions) == s
    decreases |actions|
  {
    if actions != [] {
      assert !actions[0].Respawn?;
      assert Step(cfg, s, actions[0]) == s;
      assert NoRespawn(actions[1..]) by {
        forall i | 0 <= i < |actions[1..]| ensures !actions[1..][i].Respawn? {
          assert actions[1..][i] == actions[i + 1];
        }
      }
      DeadIsAbsorbing(cfg, s, actions[1..]);
    }
  }

  /** True when every action is a frame in which the enemy does not see the player. */
  predicate Unseen(cfg: Config, actions: seq<Action>)
  {
    forall i :: 0 <= i < |actions| ==> actions[i].Frame? && !Sees(cfg, actions[i].sight)
  }

  /** A Normal soldier that has not been shot stays exactly as it is over any
      run of frames without sight of the player, alert or no alert: Normal has
      no action of its own and does not watch the bus. Together with
      `ResetEnemy`, a respawned soldier never goes back to its route unprovoked. */
  lemma {:induction false} UnprovokedNormalIsIdle(cfg: Config, s: Tick, actions: seq<Action>)
    requires s.enemy.state == Normal && !s.enemy.wasShotByPlayer
    requires Unseen(cfg, actions)
    ensures Run(cfg, s, actions) == s
    decreases |actions|
  {
    if actions != [] {
      var a := actions[0];
      assert a.Frame? && !Sees(cfg, a.sight);
      assert Step(cfg, s, a) == s;
      assert Unseen(cfg, actions[1..]) by {
        forall i | 0 <= i < |actions[1..]| ensures actions[1..][i].Frame? && !Sees(cfg, actions[1..][i].sight) {
          assert actions[1..][i] == actions[i + 1];
        }
      }
      UnprovokedNormalIsIdle(cfg, s, actions[1..]);
    }
  }

  /** The shot memory survives death and respawn: a soldier that had been
      provoked, killed and respawned chases again on its first frame, whatever
      it sees, and raises the alert if it is down. */
  lemma RespawnedChaserResumes(cfg: Config, s: Tick, amount: int, at: int, hp: nat, pose: Pose,
                               now: int, dt: nat, sight: Vision.Percept, flatDistance: int, reach: int)
    requires s.enemy.state != Dead && s.enemy.wasShotByPlayer && s.enemy.health - amount <= 0
    ensures var r := Run(cfg, s, [Shot(amount, at), Respawn(hp, pose), Frame(now, dt, sight, flatDistance, reach)]);
            r.enemy.state == Chase && r.bus.isGlobalAlert
  {
    var s1 := Step(cfg, s, Shot(amount, at));
    assert s1.enemy.wasShotByPlayer;
    var s2 := Step(cfg, s1, Respawn(hp, pose));
    assert s2.enemy.state == Normal && s2.enemy.wasShotByPlayer;
    var s3 := Step(cfg, s2, Frame(now, dt, sight, flatDistance, reach));
    assert s3.enemy.state == Chase && s3.bus.isGlobalAlert;
    var actions := [Shot(amount, at), Respawn(hp, pose), Frame(now, dt, sight, flatDistance, reach)];
    assert actions[1..] == [Respawn(hp, pose), Frame(now, dt, sight, flatDistance, reach)];
    assert actions[1..][1..] == [Frame(now, dt, sight, flatDistance, reach)];
    assert actions[1..][1..][1..] == [];
    assert Run(cfg, s3, []) == s3;
    assert Run(cfg, s2, actions[1..][1..]) == s3;
    assert Run(cfg, s1, actions[1..]) == s3;
  }

  /** Only a respawn leaves Dead. */
  lemma RespawnLeavesDead(cfg: Config, s: Tick, hp: nat, pose: Pose)
    requires Valid(cfg, s.enemy) && s.enemy.state == Dead
    ensures Step(cfg, s, Respawn(hp, pose)).enemy.state == Normal
    ensures Valid(cfg, Step(cfg, s, Respawn(hp, pose)).enemy)
  {
  }

  /** Every run keeps the enemy, the bus and the player valid. */
  lemma {:induction false} RunPreservesValid(cfg: Config, s: Tick, actions: seq<Action>)
    requires Valid(cfg, s.enemy) && AlertManager.Valid(s.bus) && PlayerStats.Valid(s.player)
    ensures var r := Run(cfg, s, actions);
            Valid(cfg, r.enemy) && AlertManager.Valid(r.bus) && PlayerStats.Valid(r.player)
    decreases |actions|
  {
    if actions != [] {
      var a := actions[0];
      match a {
      case Frame(now, dt, sight, flatDistance, reach) =>
        UpdatePreservesValid(cfg, s.enemy, s.bus, s.player, now, dt, sight, flatDistance, reach);
      case Shot(amount, at) =>
        assert PlayerStats.Valid(TakeDamage(cfg, s.enemy, s.player, amount, at).player) by {
          if s.enemy.state != Dead && s.enemy.health - amount <= 0 {
            assert TakeDamage(cfg, s.enemy, s.player, amount, at).player
                   == PlayerStats.PauseRecovery(s.player, false);
          }
        }
      case AlertReaction =>
        ForceAlertPreservesValid(cfg, s.enemy);
      case CountdownDue(t) =>
        AlertCountdownPreservesValid(s.enemy, cfg, s.bus, t);
      case Respawn(hp, pose) =>
        ResetEnemyPreservesValid(cfg, s.enemy, hp, pose);
      }
      RunPreservesValid(cfg, Step(cfg, s, a), actions[1..]);
    }
  }
}

=== FILE: vision.dfy ===
/** The vision-cone test both enemy revisions share. The geometry (distance,
    flattened angle, the ray cast from eye height) is done by the engine; the
    model receives its three results and reproduces the decision made on them. */
module Vision {

  /** What the ray cast from the enemy's eyes towards the player hit first. */
  datatype RayHit = NothingHit | PlayerHit | ObstacleHit

  /** One frame's view of the player: straight-line distance, angle between the
      enemy's forward direction and the flattened direction to the player, and
      the nearest ray hit. */
  datatype Percept = Percept(distance: int, angle: int, ray: RayHit)

  /** The player is seen when within view distance and view angle (both bounds
      inclusive) and the ray's nearest hit is the player itself. */
  function InConeOfVision(viewDistance: int, viewAngle: int, p: Percept): (seen: bool)
    ensures seen <==> p.distance <= viewDistance && p.angle <= viewAngle && p.ray == PlayerHit
    ensures p.ray == NothingHit ==> !seen
  {
    if p.distance > viewDistance then false
    else if p.angle > viewAngle then false
    else match p.ray
      case PlayerHit => true
      case ObstacleHit => false
      case NothingHit => false
  }
}
